=== FILE: README.md ===
# File-encryption analysis: a Dafny model of the scoring and measurement core

The modelled program encrypts one chosen file with seven ciphers and
measures each one. For each cipher it records:

- encryption time and throughput;
- the avalanche effect: the Hamming distance between the ciphertexts of the
  file and of the file with one bit flipped;
- the byte histogram behind the ciphertext's Shannon entropy;
- the key length.

An `AlgorithmEvaluator` then normalises every metric to a 0–10 score across
the participants, weights the scores into a total, sorts by total and
recommends:

- the best algorithm overall;
- the best for speed;
- the best for security;
- the best for small files;
- the best for large files.

There are two front ends. The console (`Main.main`) and the GUI worker
(`runEncryptionAnalysis`) run the same loop, and each keeps its own copy of
the byte helpers.

The model is purely functional:

- A Java `double` is a `real` and a Java `int` is `Int32`. Wrap-around on
  `int` arithmetic is written out as `Wrap32`.
- Byte arrays are `seq<bv8>`.
- A thrown exception is the `Err` side of a `Result`.
- A cipher is an `Algorithm` value: a name, the length of its encoded key
  (its key length in bits is `KeyLength.EncodedKeyBits` of it) and an `encrypt`
  function. `encrypt` also takes the number of the call, which lets it vary
  between calls without requiring it to. Five of the seven ciphers are
  deterministic:
  - AES, DES, TDES and Blowfish run in ECB mode with no IV
    (AES.java:7, DES.java:7, src/main/java/TDES.java:8, Blowfish.java:7).
  - PBE draws its salt once, in its constructor, and reuses it
    (src/main/java/PBEEncryption.java:18-20, 30, 38).

  Two are randomised:
  - ChaCha20 draws a fresh nonce on every call (ChaCha20.java:22-24).
  - RSA's PKCS #1 v1.5 padding is fresh for every block (RSA.java:12), so
    its `doFinal` also takes the block's position.
- The clock and the floating-point entropy formula are parameters of the
  runner.

The modules follow the source:

| Module | What it covers |
|---|---|
| `JavaNumbers` | Java `int` and the `Double` constants |
| `Outcomes` | exceptions and `getMessage` |
| `ByteMetrics` | Hamming distance, the avalanche bit flip, the entropy histogram |
| `HexDump` | the hex/text sample view |
| `Scoring` | `AlgorithmPerformance` |
| `Normalizer` | `normalizeScores` |
| `Ranking` | the evaluator's queries and sort |
| `RsaFraming`, `ChaChaFraming` | the block and nonce framing of the two ciphers that add framing of their own |
| `KeyLength` | `getKeyLength`, shared by all seven cipher wrappers |
| `Runner` | the measurement loop and the two front ends |

The GUI's private copies of `hammingDistance`, `calculateEntropy`,
`displayHexAndText` and `displayFileSamples`
(src/main/java/EncryptionAnalysisGUI.java:275-341) are the same code as
Main.java's. They are modelled once, and the table cites the Main.java
lines.

### Behaviour of the code worth knowing

- **Ties on a double metric with a non-positive value.** In
  `normalizeScores` the maxima of the three double metrics start at
  `Double.MIN_VALUE`, the smallest positive double
  (AlgorithmEvaluator.java:108-113). Suppose every participant ties at a
  value of zero or below on encryption time, throughput or entropy. Then the
  computed range is positive and the score is 0 (10 for time). A tie at a
  positive value gets 5.0 (AlgorithmEvaluator.java:150-152).
  `Normalizer.TieBelowMinValueSeed` states this.
- **One failure ends the batch.** The measurement loop has no `catch` of
  its own (Main.java:280-327), so one cipher's exception ends the whole
  batch. The console run stops. The GUI worker's `catch` publishes one
  `"ERROR: " + message` line (src/main/java/EncryptionAnalysisGUI.java:149-151).
- **The GUI picks from insertion order.** `createRecommendations` is given
  the evaluator, not the sorted list
  (src/main/java/EncryptionAnalysisGUI.java:265-272). Only the best overall
  choice is guaranteed to agree with the console's
  (`Runner.ConsoleAndGuiAgree`). The other four are not guaranteed to:
  `Ranking.SpeedChoiceDependsOnOrder` shows two records, tied on speed,
  whose best-for-speed choice changes under the sort. It does not show that
  a normalised run reaches such a tie.

## Model

| member | source | states |
|---|---|---|
| ByteMetrics.PopCount | Main.java:100-101 | `Integer.bitCount(xor & 0xFF)` lies in 0..8, is 0 exactly for equal bytes and 8 for complementary ones |
| ByteMetrics.Hamming | Main.java:96-104 | the distance is at most 8 bits per compared byte, over the shorter array's length |
| ByteMetrics.HammingDistance | Main.java:96-104 | the loop's `int` result is the Hamming distance of the common prefix, wrapped to 32 bits, and exact for arrays shorter than 2^28 bytes |
| ByteMetrics.HammingSymmetric | Main.java:98-102 | the distance does not depend on argument order |
| ByteMetrics.HammingSelfIsZero | Main.java:98-102 | an array is at distance 0 from itself |
| ByteMetrics.HammingComplement | Main.java:98-102 | an array and its bitwise complement differ in all 8·n bits |
| ByteMetrics.HammingUpToAgree | Main.java:98-102 | two pairs that agree byte for byte on the first n positions have the same distance there |
| ByteMetrics.HammingIgnoresTail | Main.java:98 | bytes beyond the shorter array's length do not affect the distance |
| ByteMetrics.FlipFirstBit | Main.java:304-305 | the copy differs from the plaintext only in bit 0 of byte 0; an empty plaintext raises index 0 out of bounds for length 0 |
| ByteMetrics.FlipFirstBitDistance | Main.java:304-307 | the modified plaintext is at distance exactly 1 from the original |
| ByteMetrics.FlipFirstBitTwice | Main.java:304-305 | flipping the modified plaintext again restores the original |
| ByteMetrics.ByteHistogram | Main.java:121-124 | bin v counts the bytes of unsigned value v, and the 256 bins sum to the data length |
| ByteMetrics.HistogramSum | Main.java:121-126 | the histogram's total equals `data.length`, the denominator of each probability |
| ByteMetrics.NonZeroCounts | Main.java:127-128 | the counts the entropy sum visits are all positive, and they are exactly the non-zero bins, each as often as it occurs (as multisets) |
| ByteMetrics.NonZeroCountsSum | Main.java:127-129 | skipping the empty bins loses no mass: the visited counts still sum to the length |
| ByteMetrics.RepeatedByteSingleBin | Main.java:121-131 | a ciphertext of one repeated byte puts its whole length in a single visited bin, the zero-entropy case |
| HexDump.HexCell | Main.java:162 | `%02X ` of `b & 0xFF` gives two valid hex digits whose value is the byte's unsigned value, then a space |
| HexDump.TextChar | Main.java:166-171 | printable ASCII 32..126 shows as itself, anything else as '.' |
| HexDump.DisplayHexAndText | Main.java:155-182 | `min(limit, length)` bytes are shown; cell j of the hex view holds two hex digits worth byte j, the text view shows its character, and an extra space follows every 8th byte |
| HexDump.DumpReadsBack | Main.java:160-176 | parsing the hex view's cells gives back exactly the first `min(limit, length)` bytes of the data |
| HexDump.DisplayFileSamples | Main.java:142-152 | the sample size is `min(50, original.length)`, and each array's hex and text views are its full dump with that limit (the ciphertext clipped to its own length) |
| KeyLength.EncodedKeyBits | RSA.java:57-59 | `getEncoded().length * 8` as a Java `int` is a multiple of 8, and the exact bit count below 2^28 bytes |
| RsaFraming.Blocks | RSA.java:30-32 | the `i += size` loop cuts the data into ceil(n/size) consecutive blocks that concatenate back to it, all full except a last of 1..size bytes |
| RsaFraming.BlocksOfFullBlocks | RSA.java:47-49 | cutting a concatenation of full 256-byte blocks at 256 gives those blocks back |
| RsaFraming.ApplyBlocks | RSA.java:30-35 | every block goes through `doFinal` in order, at its position, and succeeds exactly when all blocks do; a failure carries the exception of the first failing block, every earlier block having succeeded |
| RsaFraming.RsaEncrypt | RSA.java:23-37 | the ciphertext is the in-order concatenation of the 245-byte blocks' `doFinal` outputs; a failure is the first failing block's exception |
| RsaFraming.RsaDecrypt | RSA.java:40-54 | the plaintext is the in-order concatenation of the 256-byte blocks' `doFinal` outputs; a failure is the first failing block's exception |
| RsaFraming.EqualBlocksMayDiffer | RSA.java:12-35 | because `doFinal` may depend on the block's position, two equal plaintext blocks of one call (490 zero bytes) can encrypt to different outputs, as random PKCS #1 v1.5 padding allows |
| RsaFraming.RsaEncryptEmpty | RSA.java:30 | an empty plaintext gives an empty ciphertext without calling `doFinal` |
| RsaFraming.RsaCiphertextLength | RSA.java:23-37 | with 256-byte block outputs, the ciphertext has 256 bytes for every started 245 plaintext bytes |
| RsaFraming.EncryptsBlockwise | RSA.java:23-37 | when every block encrypts to 256 bytes, the ciphertext is the concatenation of the blocks' outputs, one per block |
| RsaFraming.DecryptAll | RSA.java:44-53 | when each output block decrypts to its plaintext block, the decryption loop gives back exactly those blocks |
| RsaFraming.RsaRoundTrip | RSA.java:23-54 | when decryption at each position inverts encryption at that position, decrypt(encrypt(p)) = p for every plaintext length |
| ChaChaFraming.ChaChaEncrypt | ChaCha20.java:19-36 | the output is the 12-byte nonce followed by the provider's ciphertext; a provider failure passes through |
| ChaChaFraming.SplitFrame | ChaCha20.java:39-47 | input shorter than 12 bytes raises IllegalArgumentException("Ciphertext too short"); otherwise nonce + body is the input |
| ChaChaFraming.ChaChaDecrypt | ChaCha20.java:39-52 | decryption calls the provider on the body under the leading nonce, or raises for short input |
| ChaChaFraming.SplitJoin | ChaCha20.java:32-47 | splitting a framed output recovers exactly the nonce and the body |
| ChaChaFraming.JoinSplit | ChaCha20.java:40-47 | for input of at least 12 bytes the split succeeds and rejoins to the input |
| ChaChaFraming.NonceOnlyHasEmptyBody | ChaCha20.java:40-47 | exactly 12 bytes is accepted, with an empty body |
| ChaChaFraming.ChaChaRoundTrip | ChaCha20.java:19-53 | when the provider's decryption inverts its encryption under a nonce, decrypt(encrypt(p)) = p |
| ChaChaFraming.EncryptedIsSplittable | ChaCha20.java:32-42 | every framed output passes the length guard |
| Scoring.NewPerformance | AlgorithmEvaluator.java:12-23 | a new record has its name, Java's zero defaults and an empty score map |
| Scoring.GetScore | AlgorithmEvaluator.java:73-75 | a key that was set reads as its stored score, any other key as 0.0 |
| Scoring.NewPerformanceReadsZero | AlgorithmEvaluator.java:18-23 | a new record reads 0.0 under every key |
| Scoring.SpeedScore | AlgorithmEvaluator.java:191-192 | the speed criterion is the mean of the time and throughput scores, between their minimum and maximum |
| Scoring.SecurityScore | AlgorithmEvaluator.java:196-197 | the security criterion is the mean of the avalanche, entropy and key-length scores, between the smallest and the largest |
| Scoring.TotalFromCriteria | AlgorithmEvaluator.java:77-90 | the total is 0.3 of the speed criterion plus 0.5 of the security criterion plus 0.2 of the resource-usage score |
| Scoring.CriterionScoresInRange | AlgorithmEvaluator.java:190-198 | with the five scores in [0,10], both criteria lie in [0,10] |
| Scoring.SetScore | AlgorithmEvaluator.java:69-71 | the metric reads back as the new score, every other key as before, and nothing but the map changes |
| Scoring.CalculateTotalScore | AlgorithmEvaluator.java:77-90 | only the total changes; each speed score weighs 0.15, each security score 1/6, resource usage 0.2, and a missing key counts as 0 |
| Scoring.TotalScoreBounds | AlgorithmEvaluator.java:77-90 | with scores in [0,10] and no resource-usage score, the total lies in [0,8] |
| Scoring.TotalScoreIdempotent | AlgorithmEvaluator.java:77-90 | recomputing the total leaves the record unchanged |
| Scoring.TotalScoreMonotone | AlgorithmEvaluator.java:77-90 | raising one score never lowers the total |
| Normalizer.RawInt | AlgorithmEvaluator.java:15-17 | the `int` metrics read as the same value when widened to double |
| Normalizer.ScanMin | AlgorithmEvaluator.java:108-113 | the `Math.min` scan gives a value no larger than the seed or any record, and equal to one of them |
| Normalizer.ScanMax | AlgorithmEvaluator.java:108-113 | the `Math.max` scan gives a value no smaller than the seed or any record, and equal to one of them |
| Normalizer.ScanMinInt | AlgorithmEvaluator.java:124-129 | the same for the `int` scans seeded with `Integer.MAX_VALUE` |
| Normalizer.ScanMaxInt | AlgorithmEvaluator.java:124-129 | the same for the `int` scans seeded with `Integer.MIN_VALUE` |
| Normalizer.MetricBounds | AlgorithmEvaluator.java:106-145 | avalanche and key length get `int` bounds, the other three get double bounds |
| Normalizer.MetricBoundsSeeded | AlgorithmEvaluator.java:106-145 | each minimum is at most its seed (`Double.MAX_VALUE` or `Integer.MAX_VALUE`) and every record's value, and equals the seed or one of them; each maximum likewise from `Double.MIN_VALUE` or `Integer.MIN_VALUE` |
| Normalizer.WriteScores | AlgorithmEvaluator.java:153-177 | after the five `setScore` calls each metric key reads back as its new score, and every other key and every raw metric is unchanged |
| Normalizer.Rescore | AlgorithmEvaluator.java:148-181 | one iteration of the per-record loop: name and raw metrics kept, each metric key holds the formula's score against the scanned bounds, other keys unchanged, and the total is the weighted total of the new scores |
| Normalizer.NormalizeScores | AlgorithmEvaluator.java:106-182 | the list keeps its order and length; every record keeps its name and raw metrics, holds under each metric key the score it earns within the whole list, in [0,10], keeps its other keys, and has its total recomputed |
| Normalizer.ScoreInRange | AlgorithmEvaluator.java:148-177 | every normalised score lies in [0,10], `int` wrap-around included |
| Normalizer.DoubleScoreInRange | AlgorithmEvaluator.java:150-171 | the double-metric formula stays in [0,10] for a value within its bounds |
| Normalizer.IntScoreInRange | AlgorithmEvaluator.java:174-176 | the `int`-metric formula, with its wrapping subtractions, stays in [0,10] |
| Normalizer.DoubleScoreMonotone | AlgorithmEvaluator.java:150-171 | a larger raw value scores higher, except for time, where it scores lower |
| Normalizer.IntScoreMonotone | AlgorithmEvaluator.java:174-176 | a larger `int` value never scores lower |
| Normalizer.NormalizeMonotone | AlgorithmEvaluator.java:148-177 | across the list, normalisation preserves the metric's order, reversed for encryption time |
| Normalizer.DoubleScoreExtremes | AlgorithmEvaluator.java:150-171 | the bounds themselves score 0 and 10, swapped for time |
| Normalizer.IntScoreExtremes | AlgorithmEvaluator.java:174-176 | whenever the `int` range does not wrap, the lowest value scores 0 and the highest 10 |
| Normalizer.IntScoreWrappedRange | AlgorithmEvaluator.java:174-176 | when the `int` spread exceeds `Integer.MAX_VALUE`, the wrapped range is negative and every value scores the tie score 5.0 |
| Normalizer.NormalizeExtremes | AlgorithmEvaluator.java:148-177 | the worst record of a metric scores 0 and the best 10, for every double metric between `Double.MIN_VALUE` and `Double.MAX_VALUE` and every `int` metric whose spread fits in an `int` |
| Normalizer.NormalizeTie | AlgorithmEvaluator.java:150-152 | when all records tie at a representable positive double (or any `int`), each scores 5.0 |
| Normalizer.SingleParticipant | AlgorithmEvaluator.java:148-177 | a lone record with positive double metrics scores 5.0 on every metric |
| Normalizer.TieBelowMinValueSeed | AlgorithmEvaluator.java:108-113 | a tie below `Double.MIN_VALUE` scores 0, or 10 for time, because the max seed stays the maximum |
| Normalizer.NormalizedTotalBounds | AlgorithmEvaluator.java:148-181 | after normalisation, a record without a resource-usage score has a total in [0,8] |
| Ranking.AddPerformance | AlgorithmEvaluator.java:101-103 | the record is appended after the existing ones, which stay in place |
| Ranking.FirstMaxIndex | AlgorithmEvaluator.java:185-187 | `Collections.max` ends on the first position of maximal key |
| Ranking.MaxBy | AlgorithmEvaluator.java:185-187 | the result is the first maximum, or NoSuchElement exactly for an empty list |
| Ranking.GetBestAlgorithm | AlgorithmEvaluator.java:185-187 | the first record of highest total |
| Ranking.GetBestForSpeed | AlgorithmEvaluator.java:190-193 | the first record of highest mean of the time and throughput scores |
| Ranking.GetBestForSecurity | AlgorithmEvaluator.java:195-198 | the first record of highest mean of the avalanche, entropy and key-length scores |
| Ranking.GetBestForSmallFiles | AlgorithmEvaluator.java:200-202 | the first record of highest time score |
| Ranking.GetBestForLargeFiles | AlgorithmEvaluator.java:204-206 | the first record of highest throughput score |
| Ranking.Recommend | Main.java:227-236 | the five selections come from the same list, and all fail together with NoSuchElement on an empty one |
| Ranking.InsertDescending | AlgorithmEvaluator.java:214-217 | insertion keeps a non-increasing list non-increasing and adds exactly one element |
| Ranking.SortDescending | AlgorithmEvaluator.java:214-217 | the result is a permutation, non-increasing in total, and records of equal total keep their relative order |
| Ranking.InsertKeepsOrderOfTies | AlgorithmEvaluator.java:216 | insertion puts the new record ahead of its equals and leaves the others' order alone |
| Ranking.SortedBestIsHead | Main.java:232 | on a sorted list the best overall record is the head |
| Ranking.SortPreservesBestOverall | Main.java:329-334 | the head of the sorted list is the best overall record of the unsorted list |
| Ranking.SpeedTieKeepsFirst | AlgorithmEvaluator.java:190-193 | of two records with equal speed scores, `getBestForSpeed` picks the first |
| Ranking.SortTwo | AlgorithmEvaluator.java:214-217 | two records of different totals come out of the sort higher total first |
| Ranking.SpeedChoiceDependsOnOrder | src/main/java/EncryptionAnalysisGUI.java:265-272 | some list has a best-for-speed choice that changes under the sort |
| Outcomes.ErrorLine | src/main/java/EncryptionAnalysisGUI.java:151 | the published line is "ERROR: " followed by exactly the exception's message |
| Outcomes.EmptyArrayIndexMessage | Main.java:305 | writing index 0 of an empty array reports "Index 0 out of bounds for length 0" |
| Runner.MeasureOne | Main.java:284-326 | in source order: speed encryption, avalanche encryption of the original, bit flip, avalanche encryption of the flipped copy; the first exception wins; a success carries the timing, the wrapped Hamming distance of the avalanche pair, the entropy of the speed ciphertext's histogram and the key length `getEncoded().length * 8` in Java `int`, a multiple of 8 |
| Runner.BuildRecords | Main.java:280-327 | one record per algorithm in list order, or the exception of the first failing iteration, with every earlier one succeeding |
| Runner.FirstFailureAbortsBatch | Main.java:280-327 | a failure of the first algorithm is the batch's failure |
| Runner.EmptyPlaintextAbortsBatch | Main.java:303-305 | an empty file fails at the bit flip once the first cipher's two encryptions succeed |
| Runner.RunMain | Main.java:329-334 | the console run fails exactly when the loop fails or there are no algorithms; otherwise it shows the normalised records stably sorted by total (records of equal total in their list order), its recommendation is `compareAndRecommend`'s five selections from that sorted list, and the best overall record is the head |
| Runner.RunGui | src/main/java/EncryptionAnalysisGUI.java:265-272 | the GUI shows the normalised records stably sorted by total (equal totals in list order) but recommends from the normalised list in insertion order |
| Runner.RunInBackground | src/main/java/EncryptionAnalysisGUI.java:146-153 | a failed analysis ends with the line "ERROR: " followed by the exception's message; the progress lines published before it are not modelled |
| Runner.ConsoleAndGuiAgree | src/main/java/EncryptionAnalysisGUI.java:265-272 | on the same inputs, console and GUI fail together, show the same ranked table and name the same best overall algorithm |
| Runner.IndexZeroLine | src/main/java/EncryptionAnalysisGUI.java:151 | the GUI line for an empty file's bit flip is "ERROR: Index 0 out of bounds for length 0" |
| Runner.EmptyPlaintextAborts | src/main/java/EncryptionAnalysisGUI.java:239-241 | an empty file ends the console run with the out-of-bounds exception, and the GUI shows its error line |
| Runner.NoAlgorithmsNoRecommendation | AlgorithmEvaluator.java:185-187 | with no algorithms the first `getBest*` raises NoSuchElement, and the GUI shows "ERROR: null" |

## Left out

- Swing UI, the worker thread, progress bar, charts, tables and log
  files. Only the values they display are modelled.
- File selection and `Files.readAllBytes`. The console reads the file twice
  (Main.java:264, 286); both reads are taken to return the same bytes.
- `System.nanoTime` and the ms/throughput arithmetic. They enter as a
  `Timing` per algorithm. A zero elapsed time gives a Java Infinity or NaN,
  which has no counterpart among reals.
- `measureResourceUsage`, `measureSpeed`, `testAvalancheEffect` and
  `testRandomnessAndEntropy`. The first only prints; the other three
  duplicate the loop body and are not called by `main`.
- The Shannon sum `-Σ p·log2 p`. It is a parameter over the modelled
  histogram, because logarithms and double rounding have no exact real
  model.
- The AES, DES, TDES, Blowfish and PBE wrappers, and the cipher
  constructors. Their only visible behaviour is the provider's `doFinal`
  and key generation. `EncryptionAlgorithm` is only an interface.
- `Cipher.doFinal`, `SecureRandom` and key generation. These are
  parameters. For RSA, `doFinal` is an arbitrary function of the block and
  its position in the call, and it may fail. This leaves room for padding
  that differs from block to block (`RsaFraming.EqualBlocksMayDiffer`)
  without fixing how it is drawn. ChaCha20's nonce is an argument.
- RsaEncrypt: `Cipher.getInstance` and `Cipher.init` (RSA.java:24-25) are not
  modelled; their exceptions cannot arise in the model, which starts at the
  block loop.
- RsaDecrypt: `Cipher.getInstance` and `Cipher.init` (RSA.java:41-42) are not
  modelled, for the same reason.
- Double semantics beyond exact reals: rounding, NaN, -0.0, and the
  `Double.compareTo` order used by `Comparator.comparing`.
- RsaFraming.Blocks: the loop counter `i += 245` could overflow `int` near
  the maximum array length; the model's counter is unbounded.
- Normalizer.NormalizeExtremes: not stated for an `int` metric whose spread
  exceeds `Integer.MAX_VALUE`. There the range subtraction wraps to a
  negative value and every record scores 5.0 (IntScoreWrappedRange).
- Normalizer.NormalizeTie: stated only for tied doubles between
  `Double.MIN_VALUE` and `Double.MAX_VALUE`; other ties are covered by
  TieBelowMinValueSeed or cannot occur for finite doubles.
- Runner.MeasureOne: the `displayFileSamples` call in the loop only prints
  and cannot throw, so it is modelled separately as
  HexDump.DisplayFileSamples and not repeated inside the record.

=== FILE: byte_metrics.dfy ===
/** The byte-level measurements of the benchmark runner: Hamming distance
    between ciphertexts, the one-bit plaintext flip of the avalanche test,
    and the 256-bin byte histogram under the entropy value. */
module ByteMetrics {
  import opened JavaNumbers
  import opened Outcomes

  type byte = bv8

  /** `Integer.bitCount` of an 8-bit value. */
  function PopCount(x: byte): (n: nat)
    ensures n <= 8
    ensures n == 0 <==> x == 0
    ensures x == 0xFF ==> n == 8
  {
    ((x >> 0) & 1) as nat + ((x >> 1) & 1) as nat + ((x >> 2) & 1) as nat + ((x >> 3) & 1) as nat
    + ((x >> 4) & 1) as nat + ((x >> 5) & 1) as nat + ((x >> 6) & 1) as nat + ((x >> 7) & 1) as nat
  }

  function MinLength(a: seq<byte>, b: seq<byte>): nat {
    if |a| <= |b| then |a| else |b|
  }

  /** Number of differing bits among the first `n` byte pairs. */
  function HammingUpTo(a: seq<byte>, b: seq<byte>, n: nat): (d: nat)
    requires n <= |a| && n <= |b|
    ensures d <= 8 * n
  {
    if n == 0 then 0 else HammingUpTo(a, b, n - 1) + PopCount(a[n - 1] ^ b[n - 1])
  }

  /** The Hamming distance of two byte arrays, counted over the shorter
      length (the longer array's tail is ignored). */
  function Hamming(a: seq<byte>, b: seq<byte>): (d: nat)
    ensures d <= 8 * MinLength(a, b)
  {
    HammingUpTo(a, b, MinLength(a, b))
  }

  /** `hammingDistance`: the source's loop, with its `int` accumulator. The
      `xor & 0xFF` of two sign-extended bytes is exactly the xor of the two
      bytes, so the bit count is taken on `a[i] ^ b[i]` directly. */
  method HammingDistance(a: seq<byte>, b: seq<byte>) returns (d: Int32)
    ensures d == Wrap32(Hamming(a, b))
    ensures MinLength(a, b) < 0x1000_0000 ==> d == Hamming(a, b)
    ensures 0 <= d <= 8 * MinLength(a, b) || MinLength(a, b) >= 0x1000_0000
  {
    d := 0;
    var len := MinLength(a, b);
    var i := 0;
    while i < len
      invariant 0 <= i <= len
      invariant d == Wrap32(HammingUpTo(a, b, i))
    {
      var bits := PopCount(a[i] ^ b[i]);
      Wrap32AddWrapped(HammingUpTo(a, b, i), bits);
      d := Wrap32(d + bits);
      i := i + 1;
    }
  }

  lemma {:induction false} HammingUpToSymmetric(a: seq<byte>, b: seq<byte>, n: nat)
    requires n <= |a| && n <= |b|
    ensures HammingUpTo(a, b, n) == HammingUpTo(b, a, n)
  {
    if n > 0 {
      HammingUpToSymmetric(a, b, n - 1);
      assert a[n - 1] ^ b[n - 1] == b[n - 1] ^ a[n - 1];
    }
  }

  /** The distance does not depend on the order of its arguments. */
  lemma HammingSymmetric(a: seq<byte>, b: seq<byte>)
    ensures Hamming(a, b) == Hamming(b, a)
  {
    HammingUpToSymmetric(a, b, MinLength(a, b));
  }

  lemma {:induction false} HammingUpToSelf(a: seq<byte>, n: nat)
    requires n <= |a|
    ensures HammingUpTo(a, a, n) == 0
  {
    if n > 0 {
      HammingUpToSelf(a, n - 1);
      assert a[n - 1] ^ a[n - 1] == 0;
    }
  }

  /** A ciphertext is at distance 0 from itself. */
  lemma HammingSelfIsZero(a: seq<byte>)
    ensures Hamming(a, a) == 0
  {
    HammingUpToSelf(a, |a|);
  }

  lemma {:induction false} HammingUpToComplement(a: seq<byte>, b: seq<byte>, n: nat)
    requires n <= |a| && n <= |b|
    requires forall i :: 0 <= i < n ==> b[i] == !a[i]
    ensures HammingUpTo(a, b, n) == 8 * n
  {
    if n > 0 {
      HammingUpToComplement(a, b, n - 1);
      assert a[n - 1] ^ b[n - 1] == 0xFF;
    }
  }

  /** Two buffers of length L that differ in every bit are at distance 8L. */
  lemma HammingComplement(a: seq<byte>, b: seq<byte>)
    requires |a| == |b|
    requires forall i :: 0 <= i < |a| ==> b[i] == !a[i]
    ensures Hamming(a, b) == 8 * |a|
  {
    HammingUpToComplement(a, b, |a|);
  }

  lemma HammingUpToFrame(a: seq<byte>, b: seq<byte>, a': seq<byte>, b': seq<byte>, n: nat)
    requires n <= |a| && n <= |b| && n <= |a'| && n <= |b'|
    requires a[..n] == a'[..n] && b[..n] == b'[..n]
    ensures HammingUpTo(a, b, n) == HammingUpTo(a', b', n)
  {
    forall i | 0 <= i < n
      ensures a[i] == a'[i] && b[i] == b'[i]
    {
      assert a[i] == a[..n][i] && a'[i] == a'[..n][i];
      assert b[i] == b[..n][i] && b'[i] == b'[..n][i];
    }
    HammingUpToAgree(a, b, a', b', n);
  }

  /** Pairs that agree byte for byte on the first `n` positions are at the
      same distance there. */
  lemma {:induction false} HammingUpToAgree(a: seq<byte>, b: seq<byte>, a': seq<byte>, b': seq<byte>, n: nat)
    requires n <= |a| && n <= |b| && n <= |a'| && n <= |b'|
    requires forall i :: 0 <= i < n ==> a[i] == a'[i] && b[i] == b'[i]
    ensures HammingUpTo(a, b, n) == HammingUpTo(a', b', n)
  {
    if n > 0 {
      HammingUpToAgree(a, b, a', b', n - 1);
      HammingUpToStep(a, b, a', b', n);
    }
  }

  lemma HammingUpToStep(a: seq<byte>, b: seq<byte>, a': seq<byte>, b': seq<byte>, n: nat)
    requires 0 < n <= |a| && n <= |b| && n <= |a'| && n <= |b'|
    requires HammingUpTo(a, b, n - 1) == HammingUpTo(a', b', n - 1)
    requires a[n - 1] == a'[n - 1] && b[n - 1] == b'[n - 1]
    ensures HammingUpTo(a, b, n) == HammingUpTo(a', b', n)
  {
  }

  /** Bytes beyond the shorter length never affect the distance: two pairs
      with the same common length and the same bytes within it are at the
      same distance, whatever follows. */
  lemma HammingIgnoresTail(a: seq<byte>, b: seq<byte>, a': seq<byte>, b': seq<byte>)
    requires MinLength(a, b) == MinLength(a', b')
    requires a[..MinLength(a, b)] == a'[..MinLength(a, b)]
    requires b[..MinLength(a, b)] == b'[..MinLength(a, b)]
    ensures Hamming(a, b) == Hamming(a', b')
  {
    HammingUpToFrame(a, b, a', b', MinLength(a, b));
  }

  /** The avalanche test's modified plaintext: a copy with the least
      significant bit of byte 0 flipped. An empty plaintext makes the
      `modifiedPlaintext[0] ^= 0x01` raise at index 0. */
  function FlipFirstBit(p: seq<byte>): (r: Result<seq<byte>>)
    ensures r.Err? <==> |p| == 0
    ensures r.Err? ==> r.error == IndexOutOfBounds(0, 0)
    ensures r.Ok? ==> |r.value| == |p| && r.value[1..] == p[1..]
    ensures r.Ok? ==> r.value[0] != p[0] && r.value[0] ^ p[0] == 1
  {
    if |p| == 0 then Err(IndexOutOfBounds(0, 0)) else Ok(p[0 := p[0] ^ 1])
  }

  /** The flipped plaintext is at Hamming distance exactly 1 from the
      original. */
  lemma FlipFirstBitDistance(p: seq<byte>)
    requires |p| > 0
    ensures Hamming(p, FlipFirstBit(p).value) == 1
  {
    HammingUpToOneDifference(p, FlipFirstBit(p).value, |p|);
  }

  /** Flipping the flipped plaintext again restores the original. */
  lemma FlipFirstBitTwice(p: seq<byte>)
    requires |p| > 0
    ensures FlipFirstBit(FlipFirstBit(p).value) == Ok(p)
  {
    var q := FlipFirstBit(p).value;
    assert q[0] ^ 1 == p[0];
    assert q[0 := q[0] ^ 1] == p;
  }

  lemma {:induction false} HammingUpToOneDifference(p: seq<byte>, q: seq<byte>, n: nat)
    requires 0 < n <= |p| && n <= |q|
    requires p[0] ^ q[0] == 1
    requires forall i :: 1 <= i < n ==> p[i] == q[i]
    ensures HammingUpTo(p, q, n) == 1
  {
    if n == 1 {
      assert PopCount(p[0] ^ q[0]) == 1;
    } else {
      HammingUpToOneDifference(p, q, n - 1);
      assert p[n - 1] ^ q[n - 1] == 0;
    }
  }

  /** Number of bytes of `data` whose unsigned value `b & 0xFF` is `v`. */
  function Occurrences(data: seq<byte>, v: int): (c: nat)
    ensures c <= |data|
  {
    if |data| == 0 then 0
    else Occurrences(data[..|data| - 1], v) + (if data[|data| - 1] as int == v then 1 else 0)
  }

  function Sum(s: seq<nat>): nat {
    if |s| == 0 then 0 else Sum(s[..|s| - 1]) + s[|s| - 1]
  }

  /** The frequency table of `calculateEntropy`: bin v counts the bytes of
      value v. */
  function Histogram(data: seq<byte>): (freq: seq<nat>)
    ensures |freq| == 256
  {
    seq(256, v requires 0 <= v < 256 => Occurrences(data, v))
  }

  lemma {:induction false} SumIncrement(s: seq<nat>, k: nat)
    requires k < |s|
    ensures Sum(s[k := s[k] + 1]) == Sum(s) + 1
  {
    var t := s[k := s[k] + 1];
    if k == |s| - 1 {
      assert t[..|t| - 1] == s[..|s| - 1];
    } else {
      assert t[..|t| - 1] == s[..|s| - 1][k := s[k] + 1];
      SumIncrement(s[..|s| - 1], k);
    }
  }

  lemma HistogramAppend(data: seq<byte>, x: byte)
    ensures Histogram(data + [x]) == Histogram(data)[x as int := Histogram(data)[x as int] + 1]
  {
    assert (data + [x])[..|data|] == data;
  }

  /** The 256 counts add up to the length of the data. */
  lemma {:induction false} HistogramSum(data: seq<byte>)
    ensures Sum(Histogram(data)) == |data|
  {
    if |data| == 0 {
      assert Histogram(data) == seq(256, v => 0);
      ZeroSum(Histogram(data));
    } else {
      var init := data[..|data| - 1];
      var x := data[|data| - 1];
      assert data == init + [x];
      HistogramSum(init);
      HistogramAppend(init, x);
      SumIncrement(Histogram(init), x as int);
    }
  }

  lemma {:induction false} ZeroSum(s: seq<nat>)
    requires forall i :: 0 <= i < |s| ==> s[i] == 0
    ensures Sum(s) == 0
  {
    if |s| > 0 {
      ZeroSum(s[..|s| - 1]);
    }
  }

  /** The counting loop of `calculateEntropy`. */
  method ByteHistogram(data: seq<byte>) returns (freq: seq<nat>)
    ensures |freq| == 256
    ensures forall v :: 0 <= v < 256 ==> freq[v] == Occurrences(data, v)
    ensures Sum(freq) == |data|
  {
    freq := seq(256, v => 0);
    assert freq == Histogram([]);
    var i := 0;
    while i < |data|
      invariant 0 <= i <= |data|
      invariant freq == Histogram(data[..i])
    {
      assert data[..i + 1] == data[..i] + [data[i]];
      HistogramAppend(data[..i], data[i]);
      freq := freq[data[i] as int := freq[data[i] as int] + 1];
      i := i + 1;
    }
    assert data[..i] == data;
    HistogramSum(data);
  }

  /** The bins that contribute a term to the entropy sum: zero counts are
      skipped, and every non-zero count is visited as often as it occurs
      among the bins. */
  function NonZeroCounts(freq: seq<nat>): (r: seq<nat>)
    ensures forall i :: 0 <= i < |r| ==> r[i] > 0
    ensures |r| <= |freq|
    ensures multiset(r) == multiset(freq)[0 := 0]
  {
    if |freq| == 0 then []
    else
      var init, last := freq[..|freq| - 1], freq[|freq| - 1];
      assert freq == init + [last];
      if last == 0 then NonZeroCounts(init)
      else NonZeroCounts(init) + [last]
  }

  /** Skipping zero bins loses no mass: the probabilities of the remaining
      bins still add up to one. */
  lemma {:induction false} NonZeroCountsSum(freq: seq<nat>)
    ensures Sum(NonZeroCounts(freq)) == Sum(freq)
  {
    if |freq| > 0 {
      NonZeroCountsSum(freq[..|freq| - 1]);
      var r := NonZeroCounts(freq[..|freq| - 1]);
      if freq[|freq| - 1] != 0 {
        assert (r + [freq[|freq| - 1]])[..|r|] == r;
      }
    }
  }

  lemma {:induction false} NonZeroCountsSingle(freq: seq<nat>, k: nat)
    requires k < |freq| && freq[k] > 0
    requires forall i :: 0 <= i < |freq| && i != k ==> freq[i] == 0
    ensures NonZeroCounts(freq) == [freq[k]]
  {
    if k == |freq| - 1 {
      NonZeroCountsNone(freq[..|freq| - 1]);
    } else {
      NonZeroCountsSingle(freq[..|freq| - 1], k);
    }
  }

  lemma {:induction false} NonZeroCountsNone(freq: seq<nat>)
    requires forall i :: 0 <= i < |freq| ==> freq[i] == 0
    ensures NonZeroCounts(freq) == []
  {
    if |freq| > 0 {
      NonZeroCountsNone(freq[..|freq| - 1]);
    }
  }

  lemma {:induction false} OccurrencesOfRepeated(data: seq<byte>, x: byte, v: int)
    requires forall i :: 0 <= i < |data| ==> data[i] == x
    ensures Occurrences(data, v) == if v == x as int then |data| else 0
  {
    if |data| > 0 {
      OccurrencesOfRepeated(data[..|data| - 1], x, v);
    }
  }

  /** A buffer of one repeated byte value has a single non-empty bin holding
      every byte, so its only entropy term is 1 * log2(1) = 0. */
  lemma RepeatedByteSingleBin(data: seq<byte>, x: byte)
    requires |data| > 0
    requires forall i :: 0 <= i < |data| ==> data[i] == x
    ensures NonZeroCounts(Histogram(data)) == [|data|]
  {
    var h := Histogram(data);
    forall v | 0 <= v < 256 && v != x as int
      ensures h[v] == 0
    {
      OccurrencesOfRepeated(data, x, v);
    }
    OccurrencesOfRepeated(data, x, x as int);
    HistogramSum(data);
    NonZeroCountsSum(h);
    NonZeroCountsSingle(h, x as int);
  }
}

=== FILE: chacha_framing.dfy ===
/** The framing of the ChaCha20 wrapper: a fresh 12-byte nonce (the nonce
    length of section 2.3 of RFC 8439) is written in front of the
    provider's ciphertext, and decryption splits it off again before
    calling the provider with the same nonce. The random source and the
    cipher are parameters. */
module ChaChaFraming {
  import opened Outcomes
  import opened ByteMetrics

  const NonceLength: nat := 12

  /** The exception `decrypt` throws for an input that cannot hold a
      nonce. */
  const TooShort: Exception := IllegalArgument("Ciphertext too short")

  /** A ciphertext split into its nonce and its body. */
  datatype Frame = Frame(nonce: seq<byte>, body: seq<byte>)

  /** `encrypt`: `doFinal(nonce, plaintext)`, the nonce copied in front of
      the result. A provider failure is passed on unchanged. */
  function ChaChaEncrypt(nonce: seq<byte>, plaintext: seq<byte>,
                         doFinal: (seq<byte>, seq<byte>) -> Result<seq<byte>>): (r: Result<seq<byte>>)
    requires |nonce| == NonceLength
    ensures r.Err? <==> doFinal(nonce, plaintext).Err?
    ensures r.Err? ==> r.error == doFinal(nonce, plaintext).error
    ensures r.Ok? ==> |r.value| == NonceLength + |doFinal(nonce, plaintext).value|
    ensures r.Ok? ==> r.value[..NonceLength] == nonce
    ensures r.Ok? ==> r.value[NonceLength..] == doFinal(nonce, plaintext).value
  {
    var body :- doFinal(nonce, plaintext);
    Ok(nonce + body)
  }

  /** The guard and the two `arraycopy` calls of `decrypt`: fewer than 12
      bytes is an `IllegalArgumentException`; otherwise the first 12 bytes
      are the nonce and the rest is the body. */
  function SplitFrame(ciphertext: seq<byte>): (r: Result<Frame>)
    ensures r.Err? <==> |ciphertext| < NonceLength
    ensures r.Err? ==> r.error == TooShort
    ensures r.Ok? ==> |r.value.nonce| == NonceLength
    ensures r.Ok? ==> r.value.nonce + r.value.body == ciphertext
  {
    if |ciphertext| < NonceLength then Err(TooShort)
    else Ok(Frame(ciphertext[..NonceLength], ciphertext[NonceLength..]))
  }

  /** `decrypt`: the body through `doFinal` under the stored nonce. */
  function ChaChaDecrypt(ciphertext: seq<byte>,
                         doFinal: (seq<byte>, seq<byte>) -> Result<seq<byte>>): (r: Result<seq<byte>>)
    ensures |ciphertext| < NonceLength ==> r == Err(TooShort)
    ensures |ciphertext| >= NonceLength ==>
      r == doFinal(ciphertext[..NonceLength], ciphertext[NonceLength..])
  {
    var frame :- SplitFrame(ciphertext);
    doFinal(frame.nonce, frame.body)
  }

  /** Splitting undoes the framing: the nonce and the body come back
      exactly as they were joined. */
  lemma SplitJoin(nonce: seq<byte>, body: seq<byte>)
    requires |nonce| == NonceLength
    ensures SplitFrame(nonce + body) == Ok(Frame(nonce, body))
  {
    assert (nonce + body)[..NonceLength] == nonce;
    assert (nonce + body)[NonceLength..] == body;
  }

  /** Joining undoes the split for every input long enough to split. */
  lemma JoinSplit(ciphertext: seq<byte>)
    requires |ciphertext| >= NonceLength
    ensures SplitFrame(ciphertext).Ok?
    ensures SplitFrame(ciphertext).value.nonce + SplitFrame(ciphertext).value.body == ciphertext
  {
  }

  /** A ciphertext of exactly the nonce length is accepted and has an
      empty body. */
  lemma NonceOnlyHasEmptyBody(ciphertext: seq<byte>)
    requires |ciphertext| == NonceLength
    ensures SplitFrame(ciphertext) == Ok(Frame(ciphertext, []))
  {
    assert ciphertext[..NonceLength] == ciphertext;
  }

  /** The round trip: when the provider's decryption under a nonce inverts
      its encryption under the same nonce, decrypting the framed output
      returns the plaintext. */
  lemma ChaChaRoundTrip(nonce: seq<byte>, plaintext: seq<byte>,
                        enc: (seq<byte>, seq<byte>) -> Result<seq<byte>>,
                        dec: (seq<byte>, seq<byte>) -> Result<seq<byte>>)
    requires |nonce| == NonceLength
    requires enc(nonce, plaintext).Ok?
    requires dec(nonce, enc(nonce, plaintext).value) == Ok(plaintext)
    ensures ChaChaDecrypt(ChaChaEncrypt(nonce, plaintext, enc).value, dec) == Ok(plaintext)
  {
    SplitJoin(nonce, enc(nonce, plaintext).value);
  }

  /** Every framed output is long enough to decrypt, whatever the
      provider returned. */
  lemma EncryptedIsSplittable(nonce: seq<byte>, plaintext: seq<byte>,
                              enc: (seq<byte>, seq<byte>) -> Result<seq<byte>>)
    requires |nonce| == NonceLength
    requires enc(nonce, plaintext).Ok?
    ensures SplitFrame(ChaChaEncrypt(nonce, plaintext, enc).value).Ok?
  {
  }
}

=== FILE: hex_dump.dfy ===
/** The sample dump printed for every algorithm: each byte as two upper-case
    hex digits and a space, and as itself when printable ASCII or '.'
    otherwise, with one extra space after every eighth byte in both views. */
module HexDump {
  import opened ByteMetrics

  const HexDigits: string := "0123456789ABCDEF"

  /** The value of one upper-case hex digit, and -1 for any other
      character; the inverse of `HexDigits`. */
  function HexValue(c: char): int {
    if '0' <= c <= '9' then c as int - '0' as int
    else if 'A' <= c <= 'F' then c as int - 'A' as int + 10
    else -1
  }

  /** Two upper-case hex digits whose value is `b`. */
  predicate HexPairOf(c0: char, c1: char, b: byte) {
    0 <= HexValue(c0) && 0 <= HexValue(c1) && 16 * HexValue(c0) + HexValue(c1) == b as int
  }

  /** `String.format("%02X ", b & 0xFF)`: two upper-case hex digits that
      read back as the byte's unsigned value, then a space. */
  function HexCell(b: byte): (s: string)
    ensures |s| == 3 && HexPairOf(s[0], s[1], b) && s[2] == ' '
  {
    HexDigitValue(b as int / 16);
    HexDigitValue(b as int % 16);
    [HexDigits[b as int / 16], HexDigits[b as int % 16], ' ']
  }

  /** `(char) (b & 0xFF)` when it lies in 32..126, '.' otherwise. */
  function TextChar(b: byte): (c: char)
    ensures c == '.' || (32 <= c as int < 127 && c as int == b as int)
    ensures 32 <= b as int < 127 ==> c as int == b as int
  {
    if 32 <= b as int < 127 then (b as int) as char else '.'
  }

  /** `Math.min(limit, data.length)`, the number of bytes the loop visits
      (a negative limit visits none). */
  function DisplayCount(limit: int, length: nat): nat {
    if limit <= 0 then 0 else if limit <= length then limit else length
  }

  /** Where byte j's hex cell starts: three characters per earlier byte plus
      one group space per completed group of eight. */
  function HexPos(j: nat): nat { 3 * j + j / 8 }

  /** Where byte j's text character sits. */
  function TextPos(j: nat): nat { j + j / 8 }

  /** The hex cell of byte j reads back as that byte. */
  predicate HexCellAt(hex: string, j: nat, b: byte) {
    && HexPos(j) + 3 <= |hex|
    && HexPairOf(hex[HexPos(j)], hex[HexPos(j) + 1], b)
    && hex[HexPos(j) + 2] == ' '
  }

  lemma HexDigitValue(d: int)
    requires 0 <= d < 16
    ensures HexValue(HexDigits[d]) == d
  {
    if d < 10 {
      assert HexDigits[d] as int == '0' as int + d;
    } else {
      assert HexDigits[d] as int == 'A' as int + d - 10;
    }
  }

  /** The hex view after `i` bytes: its length, byte j's cell at HexPos(j),
      and a group space after every 8th cell. */
  ghost predicate HexViewOf(hex: string, data: seq<byte>, i: nat) {
    && i <= |data|
    && |hex| == 3 * i + i / 8
    && (forall j :: 0 <= j < i ==> HexCellAt(hex, j, data[j]))
    && (forall j :: 0 <= j < i && (j + 1) % 8 == 0 ==> HexPos(j) + 3 < |hex| && hex[HexPos(j) + 3] == ' ')
  }

  /** The text view after `i` bytes, laid out the same way. */
  ghost predicate TextViewOf(text: string, data: seq<byte>, i: nat) {
    && i <= |data|
    && |text| == i + i / 8
    && (forall j :: 0 <= j < i ==> TextPos(j) < |text| && text[TextPos(j)] == TextChar(data[j]))
    && (forall j :: 0 <= j < i && (j + 1) % 8 == 0 ==> TextPos(j) + 1 < |text| && text[TextPos(j) + 1] == ' ')
  }

  /** Finishing byte i starts a new group exactly when i + 1 is a multiple
      of eight. */
  lemma GroupStep(i: nat)
    ensures (i + 1) / 8 == i / 8 + (if (i + 1) % 8 == 0 then 1 else 0)
  {
  }

  /** Appending byte i's cell, and the group space when due, extends the
      hex view by one byte. */
  lemma HexStep(hex: string, data: seq<byte>, i: nat)
    requires i < |data| && HexViewOf(hex, data, i)
    ensures HexViewOf(hex + HexCell(data[i]) + (if (i + 1) % 8 == 0 then " " else ""), data, i + 1)
  {
    var tail := HexCell(data[i]) + (if (i + 1) % 8 == 0 then " " else "");
    var hex' := hex + HexCell(data[i]) + (if (i + 1) % 8 == 0 then " " else "");
    assert hex' == hex + tail;
    GroupStep(i);
    assert |hex| == HexPos(i);
    forall j | 0 <= j < i
      ensures HexCellAt(hex', j, data[j])
    {
      assert HexCellAt(hex, j, data[j]);
    }
    assert HexCellAt(hex', i, data[i]);
    assert |hex'| == 3 * (i + 1) + (i + 1) / 8;
    forall j | 0 <= j < i + 1 && (j + 1) % 8 == 0
      ensures HexPos(j) + 3 < |hex'| && hex'[HexPos(j) + 3] == ' '
    {
    }
  }

  /** The same for the text view. */
  lemma TextStep(text: string, data: seq<byte>, i: nat)
    requires i < |data| && TextViewOf(text, data, i)
    ensures TextViewOf(text + [TextChar(data[i])] + (if (i + 1) % 8 == 0 then " " else ""), data, i + 1)
  {
    var text' := text + [TextChar(data[i])] + (if (i + 1) % 8 == 0 then " " else "");
    GroupStep(i);
    assert |text| == TextPos(i);
    assert forall k :: 0 <= k < |text| ==> text'[k] == text[k];
  }

  /** `hex` and `text` are the dump of the first min(limit, |data|) bytes:
      cell j of the hex view holds byte j in hex, character j of the text
      view shows it, and both views put an extra space after every 8th
      byte. */
  ghost predicate Dump(hex: string, text: string, data: seq<byte>, limit: int) {
    var n := DisplayCount(limit, |data|);
    && n <= |data|
    && |hex| == 3 * n + n / 8
    && |text| == n + n / 8
    && (forall j :: 0 <= j < n ==>
      HexCellAt(hex, j, data[j]) && TextPos(j) < |text| && text[TextPos(j)] == TextChar(data[j]))
    && (forall j :: 0 <= j < n && (j + 1) % 8 == 0 ==>
      && HexPos(j) + 3 < |hex| && hex[HexPos(j) + 3] == ' '
      && TextPos(j) + 1 < |text| && text[TextPos(j) + 1] == ' ')
  }

  /** `displayHexAndText`: the two views it builds for the first
      min(limit, |data|) bytes. */
  method DisplayHexAndText(data: seq<byte>, limit: int) returns (hex: string, text: string)
    ensures Dump(hex, text, data, limit)
  {
    var n := DisplayCount(limit, |data|);
    hex, text := "", "";
    var i := 0;
    while i < n
      invariant 0 <= i <= n
      invariant HexViewOf(hex, data, i) && TextViewOf(text, data, i)
    {
      HexStep(hex, data, i);
      TextStep(text, data, i);
      var gap := if (i + 1) % 8 == 0 then " " else "";
      hex := hex + HexCell(data[i]) + gap;
      text := text + [TextChar(data[i])] + gap;
      i := i + 1;
    }
  }

  /** Reads the first `n` cells of a hex view back into bytes; a cell that
      is not two hex digits reads as 0. */
  function ParseHexView(hex: string, n: nat): (bytes: seq<byte>)
    requires forall j :: 0 <= j < n ==> HexPos(j) + 1 < |hex|
    ensures |bytes| == n
  {
    seq(n, j requires 0 <= j < n => ParseHexCell(hex[HexPos(j)], hex[HexPos(j) + 1]))
  }

  function ParseHexCell(c0: char, c1: char): byte {
    var v := 16 * HexValue(c0) + HexValue(c1);
    if 0 <= HexValue(c0) && 0 <= HexValue(c1) && v < 256 then v as byte else 0
  }

  /** The hex view of a dump determines the bytes it shows: parsing it
      gives back the first min(limit, |data|) bytes. */
  lemma DumpReadsBack(hex: string, text: string, data: seq<byte>, limit: int)
    requires Dump(hex, text, data, limit)
    ensures var n := DisplayCount(limit, |data|);
      (forall j :: 0 <= j < n ==> HexPos(j) + 1 < |hex|) && ParseHexView(hex, n) == data[..n]
  {
    var n := DisplayCount(limit, |data|);
    forall j | 0 <= j < n
      ensures HexPos(j) + 1 < |hex| && ParseHexCell(hex[HexPos(j)], hex[HexPos(j) + 1]) == data[j]
    {
      DumpCell(hex, text, data, limit, j);
      ParseHexPair(hex[HexPos(j)], hex[HexPos(j) + 1], data[j]);
    }
    var parsed := ParseHexView(hex, n);
    assert forall j :: 0 <= j < n ==> parsed[j] == data[..n][j];
  }

  /** Cell `j` of a dump's hex view holds byte `j`. */
  lemma DumpCell(hex: string, text: string, data: seq<byte>, limit: int, j: nat)
    requires Dump(hex, text, data, limit) && j < DisplayCount(limit, |data|)
    ensures HexCellAt(hex, j, data[j])
  {
  }

  lemma ParseHexPair(c0: char, c1: char, b: byte)
    requires HexPairOf(c0, c1, b)
    ensures ParseHexCell(c0, c1) == b
  {
  }

  /** `displayFileSamples`: both dumps use min(50, |original|) as their
      limit, so the ciphertext dump shows at most as many bytes as the
      plaintext dump. */
  method DisplayFileSamples(original: seq<byte>, encrypted: seq<byte>)
    returns (sampleSize: nat, originalHex: string, originalText: string, encryptedHex: string, encryptedText: string)
    ensures sampleSize == if |original| < 50 then |original| else 50
    ensures |originalHex| == 3 * sampleSize + sampleSize / 8
    ensures |originalText| == sampleSize + sampleSize / 8
    ensures var m := if |encrypted| < sampleSize then |encrypted| else sampleSize;
      |encryptedHex| == 3 * m + m / 8 && |encryptedText| == m + m / 8
    ensures Dump(originalHex, originalText, original, sampleSize)
    ensures Dump(encryptedHex, encryptedText, encrypted, sampleSize)
  {
    sampleSize := if 50 <= |original| then 50 else |original|;
    originalHex, originalText := DisplayHexAndText(original, sampleSize);
    encryptedHex, encryptedText := DisplayHexAndText(encrypted, sampleSize);
  }
}

=== FILE: java_numbers.dfy ===
/** Java primitive-number semantics that the evaluation engine depends on.
    Doubles are modelled as exact reals; `int` arithmetic is modelled as
    unbounded arithmetic followed by an explicit two's-complement wrap. */
module JavaNumbers {

  const IntMin: int := -0x8000_0000
  const IntMax: int := 0x7FFF_FFFF
  const IntModulus: int := 0x1_0000_0000

  /** The values of a Java `int`. */
  type Int32 = x: int | IntMin <= x <= IntMax

  /** The result of a Java `int` operation whose mathematical result is `x`:
      the unique `int` congruent to `x` modulo 2^32. */
  function Wrap32(x: int): (r: Int32)
    ensures (r - x) % IntModulus == 0
    ensures IntMin <= x <= IntMax ==> r == x
  {
    (x - IntMin) % IntModulus + IntMin
  }

  /** Wrapping is insensitive to adding multiples of 2^32, so a running
      `int` sum can be wrapped at every step or once at the end. */
  lemma Wrap32AddWrapped(x: int, y: int)
    ensures Wrap32(Wrap32(x) + y) == Wrap32(x + y)
  {
    var k := (Wrap32(x) - x) / IntModulus;
    assert Wrap32(x) + y == (x + y) + k * IntModulus;
    Wrap32Periodic(x + y, k);
  }

  lemma Wrap32Periodic(x: int, k: int)
    ensures Wrap32(x + k * IntModulus) == Wrap32(x)
  {
    assert (x + k * IntModulus - IntMin) % IntModulus == (x - IntMin) % IntModulus;
  }

  /** `Double.MIN_VALUE`: the smallest POSITIVE double, 2^-1074 (the
      denominator below is 2^1074). */
  const DoubleMinValue: real :=
    1.0 / 202402253307310618352495346718917307049556649764142118356901358027430339567995346891960383701437124495187077864316811911389808737385793476867013399940738509921517424276566361364466907742093216341239767678472745068562007483424692698618103355649159556340810056512358769552333414615230502532186327508646006263307707741093494784.0

  /** `Double.MAX_VALUE`: (2 - 2^-52) * 2^1023, written out. */
  const DoubleMaxValue: real :=
    179769313486231570814527423731704356798070567525844996598917476803157260780028538760589558632766878171540458953514382464234321326889464182768467546703537516986049910576551282076245490090389328944075868508455133942304583236903222948165808559332123348274797826204144723168738177180919299881250404026184124858368.0

  /** A real that stands for a finite Java double. */
  predicate FiniteDouble(x: real) {
    -DoubleMaxValue <= x <= DoubleMaxValue
  }

  /** `Math.min` / `Math.max` on doubles (no NaN among reals) and on ints. */
  function MinReal(a: real, b: real): real { if a <= b then a else b }
  function MaxReal(a: real, b: real): real { if a >= b then a else b }
  function MinInt(a: int, b: int): int { if a <= b then a else b }
  function MaxInt(a: int, b: int): int { if a >= b then a else b }
}

=== FILE: key_length.dfy ===
/** `getKeyLength` of every cipher wrapper: the length in bytes of the
    key's encoded form times eight, evaluated in Java `int`. */
module KeyLength {
  import opened JavaNumbers

  /** `key.getEncoded().length * 8`. The product is a multiple of eight
      even after wrap-around, and it is the exact bit count for any encoding
      shorter than 2^28 bytes. */
  function EncodedKeyBits(encodedLength: nat): (r: Int32)
    ensures r % 8 == 0
    ensures encodedLength < 0x1000_0000 ==> r == encodedLength * 8
  {
    var x := encodedLength * 8;
    assert (x - IntMin) % IntModulus == (x - IntMin) - ((x - IntMin) / IntModulus) * IntModulus;
    var q := (x - IntMin) / IntModulus;
    assert x - IntMin - q * IntModulus == 8 * (encodedLength + 0x1000_0000 - q * 0x2000_0000);
    Wrap32(x)
  }
}

=== FILE: normalizer.dfy ===
/** `normalizeScores`: every raw metric is rescaled onto [0,10] against the
    minimum and maximum over all recorded algorithms, encryption time
    inverted, and every total is recomputed.

    The scans keep the source's seeds: the running minimum of a double
    metric starts at `Double.MAX_VALUE`, but its running maximum starts at
    `Double.MIN_VALUE`, the smallest POSITIVE double; the int metrics start
    at `Integer.MAX_VALUE` / `Integer.MIN_VALUE`, and their differences are
    taken in wrapping `int` arithmetic. */
module Normalizer {
  import opened JavaNumbers
  import opened Scoring

  datatype Metric = EncryptionTime | Throughput | AvalancheEffect | Entropy | KeyLength {
    predicate LowerIsBetter() { EncryptionTime? }

    /** Avalanche distance and key length are Java `int` fields. */
    predicate IsInt() { AvalancheEffect? || KeyLength? }
  }

  /** The raw value of a metric, as a real. */
  function Raw(p: Performance, m: Metric): real {
    match m
    case EncryptionTime => p.encryptionTime
    case Throughput => p.throughput
    case AvalancheEffect => p.avalancheEffect as real
    case Entropy => p.entropy
    case KeyLength => p.keyLength as real
  }

  /** The raw value of an int metric. */
  function RawInt(p: Performance, m: Metric): (v: Int32)
    requires m.IsInt()
    ensures v as real == Raw(p, m)
  {
    if m.AvalancheEffect? then p.avalancheEffect else p.keyLength
  }

  /** `lo` is what a `min = Math.min(min, x)` scan started at `seed`
      leaves: no larger than the seed or any record's value, and equal to
      one of them. */
  predicate SeededMin(ps: seq<Performance>, m: Metric, seed: real, lo: real) {
    && lo <= seed
    && (forall k :: 0 <= k < |ps| ==> lo <= Raw(ps[k], m))
    && (lo == seed || exists k :: 0 <= k < |ps| && lo == Raw(ps[k], m))
  }

  /** The same for a `max = Math.max(max, x)` scan. */
  predicate SeededMax(ps: seq<Performance>, m: Metric, seed: real, hi: real) {
    && hi >= seed
    && (forall k :: 0 <= k < |ps| ==> hi >= Raw(ps[k], m))
    && (hi == seed || exists k :: 0 <= k < |ps| && hi == Raw(ps[k], m))
  }

  /** `min = Math.min(min, x)` over the list, from `seed`. */
  function ScanMin(ps: seq<Performance>, m: Metric, seed: real): (r: real)
    ensures SeededMin(ps, m, seed, r)
  {
    if |ps| == 0 then seed
    else MinReal(ScanMin(ps[..|ps| - 1], m, seed), Raw(ps[|ps| - 1], m))
  }

  /** `max = Math.max(max, x)` over the list, from `seed`. */
  function ScanMax(ps: seq<Performance>, m: Metric, seed: real): (r: real)
    ensures SeededMax(ps, m, seed, r)
  {
    if |ps| == 0 then seed
    else MaxReal(ScanMax(ps[..|ps| - 1], m, seed), Raw(ps[|ps| - 1], m))
  }

  function ScanMinInt(ps: seq<Performance>, m: Metric, seed: Int32): (r: Int32)
    requires m.IsInt()
    ensures r <= seed
    ensures forall k :: 0 <= k < |ps| ==> r <= RawInt(ps[k], m)
    ensures r == seed || exists k :: 0 <= k < |ps| && r == RawInt(ps[k], m)
  {
    if |ps| == 0 then seed
    else MinInt(ScanMinInt(ps[..|ps| - 1], m, seed), RawInt(ps[|ps| - 1], m))
  }

  function ScanMaxInt(ps: seq<Performance>, m: Metric, seed: Int32): (r: Int32)
    requires m.IsInt()
    ensures r >= seed
    ensures forall k :: 0 <= k < |ps| ==> r >= RawInt(ps[k], m)
    ensures r == seed || exists k :: 0 <= k < |ps| && r == RawInt(ps[k], m)
  {
    if |ps| == 0 then seed
    else MaxInt(ScanMaxInt(ps[..|ps| - 1], m, seed), RawInt(ps[|ps| - 1], m))
  }

  /** A metric's scanned extremes, in the arithmetic of its Java type. */
  datatype Bounds = DoubleBounds(lo: real, hi: real) | IntBounds(ilo: Int32, ihi: Int32)

  /** The bounds the scans of `normalizeScores` leave for metric `m`. */
  function MetricBounds(ps: seq<Performance>, m: Metric): (b: Bounds)
    ensures m.IsInt() <==> b.IntBounds?
  {
    if m.IsInt() then IntBounds(ScanMinInt(ps, m, IntMax), ScanMaxInt(ps, m, IntMin))
    else DoubleBounds(ScanMin(ps, m, DoubleMaxValue), ScanMax(ps, m, DoubleMinValue))
  }

  /** What the bounds are: double bounds are the minimum seeded with
      `Double.MAX_VALUE` and the maximum seeded with `Double.MIN_VALUE`, int
      bounds the minimum seeded with `Integer.MAX_VALUE` and the maximum
      seeded with `Integer.MIN_VALUE`. */
  lemma MetricBoundsSeeded(ps: seq<Performance>, m: Metric)
    ensures var b := MetricBounds(ps, m);
      && (b.DoubleBounds? ==> SeededMin(ps, m, DoubleMaxValue, b.lo) && SeededMax(ps, m, DoubleMinValue, b.hi))
      && (b.IntBounds? ==> SeededMin(ps, m, IntMax as real, b.ilo as real) && SeededMax(ps, m, IntMin as real, b.ihi as real))
  {
  }

  /** The score formula of a double metric: `10 * ((v - min) / range)`, or
      `10 * (1 - (v - min) / range)` when lower is better, and 5.0 unless
      the range is positive. */
  function DoubleScore(v: real, lo: real, hi: real, lowerIsBetter: bool): real {
    var range := hi - lo;
    if range > 0.0 then
      if lowerIsBetter then 10.0 * (1.0 - (v - lo) / range) else 10.0 * ((v - lo) / range)
    else 5.0
  }

  /** The score formula of an int metric: both differences are Java `int`
      subtractions, widened to double only afterwards. */
  function IntScore(v: Int32, lo: Int32, hi: Int32): real {
    var range := Wrap32(hi - lo) as real;
    if range > 0.0 then 10.0 * (Wrap32(v - lo) as real / range) else 5.0
  }

  /** The per-record score formula for one metric. */
  function Score(m: Metric, b: Bounds, p: Performance): real
    requires m.IsInt() <==> b.IntBounds?
  {
    match b
    case DoubleBounds(lo, hi) => DoubleScore(Raw(p, m), lo, hi, m.LowerIsBetter())
    case IntBounds(lo, hi) => IntScore(RawInt(p, m), lo, hi)
  }

  /** The score `normalizeScores` gives record `p` for metric `m` within the
      participant list `ps`. */
  function NormalizedScore(ps: seq<Performance>, m: Metric, p: Performance): real {
    Score(m, MetricBounds(ps, m), p)
  }

  /** A record's state after `normalizeScores`, apart from its new scores
      and total: name and raw metrics untouched. */
  predicate SameMeasurements(p: Performance, q: Performance) {
    q.(scores := p.scores, totalScore := p.totalScore) == p
  }

  predicate IsMetricKey(k: string) {
    k == EncryptionTimeKey || k == ThroughputKey || k == AvalancheEffectKey || k == EntropyKey || k == KeyLengthKey
  }

  /** The six score keys are distinct strings (their lengths differ). */
  lemma KeysDistinct()
    ensures |EncryptionTimeKey| == 14 && |ThroughputKey| == 10 && |AvalancheEffectKey| == 15
    ensures |EntropyKey| == 7 && |KeyLengthKey| == 9 && |ResourceUsageKey| == 13
  {
  }

  /** `q` holds, under each metric's key, the score `p` earns within `ps`. */
  predicate ScoredAgainst(q: Performance, ps: seq<Performance>, p: Performance) {
    && GetScore(q, EncryptionTimeKey) == NormalizedScore(ps, EncryptionTime, p)
    && GetScore(q, ThroughputKey) == NormalizedScore(ps, Throughput, p)
    && GetScore(q, AvalancheEffectKey) == NormalizedScore(ps, AvalancheEffect, p)
    && GetScore(q, EntropyKey) == NormalizedScore(ps, Entropy, p)
    && GetScore(q, KeyLengthKey) == NormalizedScore(ps, KeyLength, p)
  }

  /** The five `setScore` calls of the loop body: each metric key reads
      back as its new score, every other key and every raw metric is left
      alone. */
  function WriteScores(p: Performance, time: real, throughput: real, avalanche: real,
                       entropy: real, keyLength: real): (q: Performance)
    ensures SameMeasurements(p, q)
    ensures GetScore(q, EncryptionTimeKey) == time && GetScore(q, ThroughputKey) == throughput
    ensures GetScore(q, AvalancheEffectKey) == avalanche && GetScore(q, EntropyKey) == entropy
    ensures GetScore(q, KeyLengthKey) == keyLength
    ensures forall k :: !IsMetricKey(k) ==> GetScore(q, k) == GetScore(p, k)
  {
    KeysDistinct();
    var p1 := SetScore(p, EncryptionTimeKey, time);
    var p2 := SetScore(p1, ThroughputKey, throughput);
    var p3 := SetScore(p2, AvalancheEffectKey, avalanche);
    var p4 := SetScore(p3, EntropyKey, entropy);
    SetScore(p4, KeyLengthKey, keyLength)
  }

  /** The five pairs of extremes the scans leave behind, computed once
      before the per-record loop. */
  datatype Extremes = Extremes(time: Bounds, throughput: Bounds, avalanche: Bounds, entropy: Bounds, keyLength: Bounds)
  {
    /** Each metric's bounds are in the arithmetic of its Java type. */
    predicate Typed() {
      && time.DoubleBounds? && throughput.DoubleBounds? && entropy.DoubleBounds?
      && avalanche.IntBounds? && keyLength.IntBounds?
    }
  }

  /** The five scans of `normalizeScores`. */
  function ScanExtremes(ps: seq<Performance>): (ext: Extremes)
    ensures ext.Typed()
    ensures ext.time == MetricBounds(ps, EncryptionTime) && ext.throughput == MetricBounds(ps, Throughput)
    ensures ext.avalanche == MetricBounds(ps, AvalancheEffect) && ext.entropy == MetricBounds(ps, Entropy)
    ensures ext.keyLength == MetricBounds(ps, KeyLength)
  {
    Extremes(MetricBounds(ps, EncryptionTime), MetricBounds(ps, Throughput),
             MetricBounds(ps, AvalancheEffect), MetricBounds(ps, Entropy), MetricBounds(ps, KeyLength))
  }

  /** The body of the per-record loop: five `setScore` calls against the
      scanned extremes, then `calculateTotalScore`. Name and raw metrics
      stay, exactly the five metric keys are written, and the total is the
      weighted total of the new map. */
  function Rescore(p: Performance, ext: Extremes): (q: Performance)
    requires ext.Typed()
    ensures SameMeasurements(p, q)
    ensures GetScore(q, EncryptionTimeKey) == Score(EncryptionTime, ext.time, p)
    ensures GetScore(q, ThroughputKey) == Score(Throughput, ext.throughput, p)
    ensures GetScore(q, AvalancheEffectKey) == Score(AvalancheEffect, ext.avalanche, p)
    ensures GetScore(q, EntropyKey) == Score(Entropy, ext.entropy, p)
    ensures GetScore(q, KeyLengthKey) == Score(KeyLength, ext.keyLength, p)
    ensures forall k :: !IsMetricKey(k) ==> GetScore(q, k) == GetScore(p, k)
    ensures q == CalculateTotalScore(q)
  {
    var w := WriteScores(p,
      Score(EncryptionTime, ext.time, p), Score(Throughput, ext.throughput, p),
      Score(AvalancheEffect, ext.avalanche, p), Score(Entropy, ext.entropy, p),
      Score(KeyLength, ext.keyLength, p));
    TotalScoreIdempotent(w);
    CalculateTotalScore(w)
  }

  /** `normalizeScores`. The list keeps its order and length; every record
      keeps its name and raw metrics; only the five metric keys of its map
      are written, each with the score the record earns within the list,
      in [0,10]; and its total is the weighted total of its new map. */
  function NormalizeScores(ps: seq<Performance>): (qs: seq<Performance>)
    ensures |qs| == |ps|
    ensures forall i :: 0 <= i < |ps| ==> SameMeasurements(ps[i], qs[i])
    ensures forall i :: 0 <= i < |ps| ==> ScoredAgainst(qs[i], ps, ps[i])
    ensures forall i, k :: 0 <= i < |ps| && !IsMetricKey(k) ==> GetScore(qs[i], k) == GetScore(ps[i], k)
    ensures forall i :: 0 <= i < |ps| ==> ScoresInRange(qs[i])
    ensures forall i :: 0 <= i < |ps| ==> qs[i] == CalculateTotalScore(qs[i])
  {
    var ext := ScanExtremes(ps);
    var qs := MapRecords(ps, p => Rescore(p, ext));
    RescoredRecords(ps, ext, qs);
    qs
  }

  /** The per-record loop: `f` applied to every record, in order. */
  function MapRecords(rs: seq<Performance>, f: Performance -> Performance): (qs: seq<Performance>)
    ensures |qs| == |rs|
    ensures forall i :: 0 <= i < |rs| ==> qs[i] == f(rs[i])
  {
    if |rs| == 0 then [] else MapRecords(rs[..|rs| - 1], f) + [f(rs[|rs| - 1])]
  }

  /** What the per-record loop leaves in every slot of the list. */
  lemma RescoredRecords(ps: seq<Performance>, ext: Extremes, qs: seq<Performance>)
    requires ext == ScanExtremes(ps)
    requires |qs| == |ps| && forall i :: 0 <= i < |ps| ==> qs[i] == Rescore(ps[i], ext)
    ensures forall i :: 0 <= i < |ps| ==> SameMeasurements(ps[i], qs[i])
    ensures forall i :: 0 <= i < |ps| ==> ScoredAgainst(qs[i], ps, ps[i]) && ScoresInRange(qs[i])
    ensures forall i, k :: 0 <= i < |ps| && !IsMetricKey(k) ==> GetScore(qs[i], k) == GetScore(ps[i], k)
    ensures forall i :: 0 <= i < |ps| ==> qs[i] == CalculateTotalScore(qs[i])
  {
    forall i | 0 <= i < |ps|
      ensures ScoredAgainst(qs[i], ps, ps[i]) && ScoresInRange(qs[i])
    {
      ScoreInRange(ps, EncryptionTime, i);
      ScoreInRange(ps, Throughput, i);
      ScoreInRange(ps, AvalancheEffect, i);
      ScoreInRange(ps, Entropy, i);
      ScoreInRange(ps, KeyLength, i);
    }
  }

  lemma RatioInUnit(a: real, r: real)
    requires r > 0.0 && 0.0 <= a <= r
    ensures 0.0 <= a / r <= 1.0
  {
  }

  lemma RatioMonotone(a: real, b: real, r: real)
    requires r > 0.0 && a <= b
    ensures a / r <= b / r
  {
  }

  /** An int difference beyond `Integer.MAX_VALUE` wraps to a negative
      value. */
  lemma Wrap32Overflow(x: int)
    requires IntMax < x < IntModulus
    ensures Wrap32(x) == x - IntModulus
  {
    assert (x - IntMin) % IntModulus == x - IntMin - IntModulus;
  }

  /** Every score lies in [0,10]. For the int metrics this holds even when
      `max - min` overflows: the wrapped range is then negative and the
      score is 5.0. */
  lemma ScoreInRange(ps: seq<Performance>, m: Metric, i: nat)
    requires i < |ps|
    ensures 0.0 <= NormalizedScore(ps, m, ps[i]) <= 10.0
  {
    var b := MetricBounds(ps, m);
    if m.IsInt() {
      IntScoreInRange(RawInt(ps[i], m), b.ilo, b.ihi);
    } else {
      DoubleScoreInRange(Raw(ps[i], m), b.lo, b.hi, m.LowerIsBetter());
    }
  }

  lemma DoubleScoreInRange(v: real, lo: real, hi: real, lowerIsBetter: bool)
    requires lo <= v <= hi
    ensures 0.0 <= DoubleScore(v, lo, hi, lowerIsBetter) <= 10.0
  {
    if hi - lo > 0.0 {
      RatioInUnit(v - lo, hi - lo);
    }
  }

  lemma IntScoreInRange(v: Int32, lo: Int32, hi: Int32)
    requires lo <= v <= hi
    ensures 0.0 <= IntScore(v, lo, hi) <= 10.0
  {
    if hi - lo > IntMax {
      Wrap32Overflow(hi - lo);
    } else if hi - lo > 0 {
      RatioInUnit((v - lo) as real, (hi - lo) as real);
    }
  }

  lemma DoubleScoreMonotone(v: real, w: real, lo: real, hi: real, lowerIsBetter: bool)
    requires v <= w
    ensures !lowerIsBetter ==> DoubleScore(v, lo, hi, lowerIsBetter) <= DoubleScore(w, lo, hi, lowerIsBetter)
    ensures lowerIsBetter ==> DoubleScore(v, lo, hi, lowerIsBetter) >= DoubleScore(w, lo, hi, lowerIsBetter)
  {
    if hi - lo > 0.0 {
      RatioMonotone(v - lo, w - lo, hi - lo);
    }
  }

  lemma IntScoreMonotone(v: Int32, w: Int32, lo: Int32, hi: Int32)
    requires lo <= v <= w <= hi
    ensures IntScore(v, lo, hi) <= IntScore(w, lo, hi)
  {
    if hi - lo > IntMax {
      Wrap32Overflow(hi - lo);
    } else if hi - lo > 0 {
      RatioMonotone((v - lo) as real, (w - lo) as real, (hi - lo) as real);
    }
  }

  /** Normalisation preserves the order of raw values: for a higher-is-better
      metric a smaller raw value never scores more, and for encryption time
      a smaller raw value never scores less. */
  lemma NormalizeMonotone(ps: seq<Performance>, m: Metric, i: nat, j: nat)
    requires i < |ps| && j < |ps|
    requires Raw(ps[i], m) <= Raw(ps[j], m)
    ensures !m.LowerIsBetter() ==> NormalizedScore(ps, m, ps[i]) <= NormalizedScore(ps, m, ps[j])
    ensures m.LowerIsBetter() ==> NormalizedScore(ps, m, ps[i]) >= NormalizedScore(ps, m, ps[j])
  {
    var b := MetricBounds(ps, m);
    if m.IsInt() {
      IntScoreMonotone(RawInt(ps[i], m), RawInt(ps[j], m), b.ilo, b.ihi);
    } else {
      DoubleScoreMonotone(Raw(ps[i], m), Raw(ps[j], m), b.lo, b.hi, m.LowerIsBetter());
    }
  }

  /** Raw values a Java double or int scan reaches exactly: for a double
      metric the maximum is a positive finite double (at least
      `Double.MIN_VALUE`), for an int metric the spread `max - min` does
      not exceed `Integer.MAX_VALUE`, so the int subtraction does not wrap. */
  predicate ScanExact(m: Metric, least: real, greatest: real) {
    if m.IsInt() then greatest - least <= IntMax as real else DoubleMinValue <= greatest <= DoubleMaxValue
  }

  /** With a positive spread, the extreme raw values map to the ends of the
      scale: the minimum scores 0 and the maximum 10, reversed for
      encryption time. */
  lemma NormalizeExtremes(ps: seq<Performance>, m: Metric, i: nat, j: nat)
    requires i < |ps| && j < |ps|
    requires forall k :: 0 <= k < |ps| ==> Raw(ps[i], m) <= Raw(ps[k], m) <= Raw(ps[j], m)
    requires Raw(ps[i], m) < Raw(ps[j], m)
    requires ScanExact(m, Raw(ps[i], m), Raw(ps[j], m))
    ensures NormalizedScore(ps, m, ps[i]) == if m.LowerIsBetter() then 10.0 else 0.0
    ensures NormalizedScore(ps, m, ps[j]) == if m.LowerIsBetter() then 0.0 else 10.0
  {
    var b := MetricBounds(ps, m);
    if m.IsInt() {
      assert b.ilo == RawInt(ps[i], m) && b.ihi == RawInt(ps[j], m);
      IntScoreExtremes(b.ilo, b.ihi);
    } else {
      assert b.lo == Raw(ps[i], m) && b.hi == Raw(ps[j], m);
      DoubleScoreExtremes(b.lo, b.hi, m.LowerIsBetter());
    }
  }

  lemma DoubleScoreExtremes(lo: real, hi: real, lowerIsBetter: bool)
    requires lo < hi
    ensures DoubleScore(lo, lo, hi, lowerIsBetter) == if lowerIsBetter then 10.0 else 0.0
    ensures DoubleScore(hi, lo, hi, lowerIsBetter) == if lowerIsBetter then 0.0 else 10.0
  {
    assert (hi - lo) / (hi - lo) == 1.0;
  }

  /** When the `int` spread exceeds `Integer.MAX_VALUE`, the range wraps to
      a negative value and every record gets the tie score 5.0. */
  lemma IntScoreWrappedRange(v: Int32, lo: Int32, hi: Int32)
    requires hi - lo > IntMax
    ensures IntScore(v, lo, hi) == 5.0
  {
    assert Wrap32(hi - lo) == hi - lo - 0x1_0000_0000;
  }

  lemma IntScoreExtremes(lo: Int32, hi: Int32)
    requires lo < hi && hi - lo <= IntMax
    ensures IntScore(lo, lo, hi) == 0.0
    ensures IntScore(hi, lo, hi) == 10.0
  {
    assert Wrap32(hi - lo) == hi - lo && Wrap32(lo - lo) == 0;
    var r := (hi - lo) as real;
    assert r / r == 1.0;
  }

  /** A metric on which every participant ties at a value the scans reach
      exactly scores the midpoint 5.0 for everyone. */
  lemma NormalizeTie(ps: seq<Performance>, m: Metric, c: real, i: nat)
    requires i < |ps|
    requires forall k :: 0 <= k < |ps| ==> Raw(ps[k], m) == c
    requires !m.IsInt() ==> DoubleMinValue <= c <= DoubleMaxValue
    ensures NormalizedScore(ps, m, ps[i]) == 5.0
  {
    var b := MetricBounds(ps, m);
    if m.IsInt() {
      assert b.ilo as real == c && b.ihi as real == c;
    } else {
      assert b.lo == c && b.hi == c;
    }
  }

  /** With exactly one participant whose double metrics are positive finite
      doubles, all five scores are 5.0. */
  lemma SingleParticipant(p: Performance)
    requires DoubleMinValue <= p.encryptionTime <= DoubleMaxValue
    requires DoubleMinValue <= p.throughput <= DoubleMaxValue
    requires DoubleMinValue <= p.entropy <= DoubleMaxValue
    ensures forall m :: NormalizedScore([p], m, p) == 5.0
  {
    forall m {
      NormalizeTie([p], m, Raw(p, m), 0);
    }
  }

  /** The `Double.MIN_VALUE` seed at work: when every participant ties on a
      double metric at a value below it (zero entropy, say), the scanned
      maximum is the seed, the range is positive, and the tie scores 0.0
      (10.0 for encryption time) instead of 5.0. */
  lemma TieBelowMinValueSeed(ps: seq<Performance>, m: Metric, c: real, i: nat)
    requires i < |ps| && !m.IsInt()
    requires forall k :: 0 <= k < |ps| ==> Raw(ps[k], m) == c
    requires c < DoubleMinValue
    ensures NormalizedScore(ps, m, ps[i]) == if m.LowerIsBetter() then 10.0 else 0.0
  {
    var b := MetricBounds(ps, m);
    assert b.lo == c && b.hi == DoubleMinValue;
  }

  /** After normalisation every total lies in [0,8] when no record carries a
      resource-usage score. */
  lemma NormalizedTotalBounds(ps: seq<Performance>, i: nat)
    requires i < |ps|
    requires ResourceUsageKey !in ps[i].scores
    ensures 0.0 <= NormalizeScores(ps)[i].totalScore <= 8.0
  {
    var qs := NormalizeScores(ps);
    assert !IsMetricKey(ResourceUsageKey);
    var q := qs[i];
    assert ScoresInRange(q) && q == CalculateTotalScore(q);
    assert GetScore(q, ResourceUsageKey) == 0.0;
    TotalScoreBounds(q);
  }
}

=== FILE: outcomes.dfy ===
/** The exceptions the modelled code can raise, and a failure-compatible
    result type that carries them. */
module Outcomes {

  /** The Java exceptions that reach the engine. `Provider` stands for any
      exception thrown inside the cryptography provider (`Cipher.doFinal`,
      `Cipher.init`), whose message is not known to the model. */
  datatype Exception =
    | IndexOutOfBounds(index: nat, length: nat)
    | IllegalArgument(message: string)
    | NoSuchElement
    | Provider(message: string)

  datatype Result<+T> = Ok(value: T) | Err(error: Exception) {
    predicate IsFailure() { Err? }

    function PropagateFailure<U>(): Result<U>
      requires Err?
    {
      Err(error)
    }

    function Extract(): T
      requires Ok?
    {
      value
    }
  }

  /** Decimal digits of a natural number, as `Integer.toString` prints it. */
  function NatToString(n: nat): (s: string)
    ensures |s| >= 1
    ensures forall i :: 0 <= i < |s| ==> '0' <= s[i] <= '9'
  {
    if n < 10 then ["0123456789"[n]]
    else NatToString(n / 10) + ["0123456789"[n % 10]]
  }

  /** `Throwable.getMessage()` as string concatenation renders it: the
      bounds message of JDK 11 and later, and "null" for the message-less
      exception `Collections.max` raises on an empty list. */
  function Message(e: Exception): string {
    match e
    case IndexOutOfBounds(i, n) =>
      "Index " + NatToString(i) + " out of bounds for length " + NatToString(n)
    case IllegalArgument(m) => m
    case NoSuchElement => "null"
    case Provider(m) => m
  }

  /** The line the GUI worker's `catch` publishes: "ERROR: " followed by
      the exception's message. */
  function ErrorLine(e: Exception): (line: string)
    ensures |line| >= 7 && line[..7] == "ERROR: " && line[7..] == Message(e)
  {
    "ERROR: " + Message(e)
  }

  /** The message an empty array's first write raises: "Index 0 out of
      bounds for length 0". */
  lemma EmptyArrayIndexMessage()
    ensures Message(IndexOutOfBounds(0, 0)) == "Index " + "0" + " out of bounds for length " + "0"
  {
    assert NatToString(0) == "0";
  }
}

=== FILE: performance.dfy ===
/** One algorithm's measurements (`AlgorithmPerformance`): raw metrics, the
    string-keyed map of normalised scores, and the weighted total. */
module Scoring {
  import opened JavaNumbers

  const EncryptionTimeKey: string := "encryptionTime"
  const ThroughputKey: string := "throughput"
  const AvalancheEffectKey: string := "avalancheEffect"
  const EntropyKey: string := "entropy"
  const KeyLengthKey: string := "keyLength"
  /** Read by the total but never written by any caller. */
  const ResourceUsageKey: string := "resourceUsage"

  const SpeedWeight: real := 0.3
  const SecurityWeight: real := 0.5
  const EfficiencyWeight: real := 0.2

  datatype Performance = Performance(
    name: string,
    encryptionTime: real,   // milliseconds, lower is better
    throughput: real,       // MB/s
    avalancheEffect: Int32, // differing ciphertext bits
    entropy: real,          // bits per byte
    keyLength: Int32,       // bits
    scores: map<string, real>,
    totalScore: real)

  /** `new AlgorithmPerformance(name)`: Java's zero defaults and an empty
      score map. */
  function NewPerformance(name: string): (p: Performance)
    ensures p.name == name && p.scores == map[] && p.totalScore == 0.0
    ensures p.encryptionTime == 0.0 && p.throughput == 0.0 && p.entropy == 0.0
    ensures p.avalancheEffect == 0 && p.keyLength == 0
  {
    Performance(name, 0.0, 0.0, 0, 0.0, 0, map[], 0.0)
  }

  /** `getScore`: the stored score of a key that was set, 0.0 for any other
      key. */
  function GetScore(p: Performance, metric: string): (r: real)
    ensures metric in p.scores ==> r == p.scores[metric]
    ensures metric !in p.scores ==> r == 0.0
  {
    if metric in p.scores then p.scores[metric] else 0.0
  }

  /** A fresh record reads 0.0 under every key, so a metric nobody scored
      neither helps nor hurts a total. */
  lemma NewPerformanceReadsZero(name: string)
    ensures forall metric :: GetScore(NewPerformance(name), metric) == 0.0
  {
  }

  /** `setScore`: after it, `metric` reads back as `score` and every other
      key reads as before; nothing but the map changes. */
  function SetScore(p: Performance, metric: string, score: real): (q: Performance)
    ensures GetScore(q, metric) == score
    ensures forall k :: k != metric ==> GetScore(q, k) == GetScore(p, k)
    ensures q.scores.Keys == p.scores.Keys + {metric}
    ensures q == p.(scores := q.scores)
  {
    p.(scores := p.scores[metric := score])
  }

  /** The key `getBestForSpeed` maximises: the mean of the time and
      throughput scores, so it lies between the smaller and the larger. */
  function SpeedScore(p: Performance): (r: real)
    ensures var t, u := GetScore(p, EncryptionTimeKey), GetScore(p, ThroughputKey);
      MinReal(t, u) <= r <= MaxReal(t, u)
  {
    (GetScore(p, EncryptionTimeKey) + GetScore(p, ThroughputKey)) / 2.0
  }

  /** The key `getBestForSecurity` maximises: the mean of the avalanche,
      entropy and key-length scores, so it is at least the smallest of them
      and at most the largest. */
  function SecurityScore(p: Performance): (r: real)
    ensures var a, e, k := GetScore(p, AvalancheEffectKey), GetScore(p, EntropyKey), GetScore(p, KeyLengthKey);
      MinReal(MinReal(a, e), k) <= r <= MaxReal(MaxReal(a, e), k)
  {
    (GetScore(p, AvalancheEffectKey) + GetScore(p, EntropyKey) + GetScore(p, KeyLengthKey)) / 3.0
  }

  /** `calculateTotalScore`: 0.3 of the speed average, 0.5 of the security
      average and 0.2 of the resource-usage score, each read with a 0.0
      default. Expanded, each speed score weighs 0.15 and each security
      score 1/6. Only `totalScore` changes. */
  function CalculateTotalScore(p: Performance): (q: Performance)
    ensures q == p.(totalScore := q.totalScore)
    ensures q.totalScore ==
      0.15 * GetScore(p, EncryptionTimeKey) + 0.15 * GetScore(p, ThroughputKey)
      + (GetScore(p, AvalancheEffectKey) + GetScore(p, EntropyKey) + GetScore(p, KeyLengthKey)) / 6.0
      + 0.2 * GetScore(p, ResourceUsageKey)
  {
    p.(totalScore :=
      SpeedWeight * (GetScore(p, EncryptionTimeKey) + GetScore(p, ThroughputKey)) / 2.0
      + SecurityWeight * (GetScore(p, AvalancheEffectKey) + GetScore(p, EntropyKey) + GetScore(p, KeyLengthKey)) / 3.0
      + EfficiencyWeight * GetScore(p, ResourceUsageKey))
  }

  /** The five scores `normalizeScores` writes. */
  predicate ScoresInRange(p: Performance) {
    && 0.0 <= GetScore(p, EncryptionTimeKey) <= 10.0
    && 0.0 <= GetScore(p, ThroughputKey) <= 10.0
    && 0.0 <= GetScore(p, AvalancheEffectKey) <= 10.0
    && 0.0 <= GetScore(p, EntropyKey) <= 10.0
    && 0.0 <= GetScore(p, KeyLengthKey) <= 10.0
  }

  /** With the five scores in [0,10] and the resource-usage score reading as
      its 0.0 default, the total lies in [0,8]: the 0.2 share is never
      earned. */
  lemma TotalScoreBounds(p: Performance)
    requires ScoresInRange(p)
    requires GetScore(p, ResourceUsageKey) == 0.0
    ensures 0.0 <= CalculateTotalScore(p).totalScore <= 8.0
  {
  }

  /** The total is the criterion averages the selectors rank by, weighted
      0.3 for speed and 0.5 for security, plus 0.2 of the resource-usage
      score. */
  lemma TotalFromCriteria(p: Performance)
    ensures CalculateTotalScore(p).totalScore ==
      0.3 * SpeedScore(p) + 0.5 * SecurityScore(p) + 0.2 * GetScore(p, ResourceUsageKey)
  {
  }

  /** With the five scores in [0,10], so are both criterion averages. */
  lemma CriterionScoresInRange(p: Performance)
    requires ScoresInRange(p)
    ensures 0.0 <= SpeedScore(p) <= 10.0
    ensures 0.0 <= SecurityScore(p) <= 10.0
  {
  }

  /** Recomputing the total without changing the scores gives the same
      record. */
  lemma TotalScoreIdempotent(p: Performance)
    ensures CalculateTotalScore(CalculateTotalScore(p)) == CalculateTotalScore(p)
  {
  }

  /** The total never decreases when one score rises and the others stay:
      every weight is non-negative. */
  lemma TotalScoreMonotone(p: Performance, metric: string, score: real)
    requires score >= GetScore(p, metric)
    ensures CalculateTotalScore(SetScore(p, metric, score)).totalScore >= CalculateTotalScore(p).totalScore
  {
  }
}

=== FILE: ranking.dfy ===
/** The evaluator's list of records and its ranking queries: the stable
    descending sort of `getSortedPerformances` and the five `getBest*`
    selectors built on `Collections.max`. */
module Ranking {
  import opened Outcomes
  import opened Scoring

  /** `AlgorithmEvaluator`: the records in insertion order. */
  datatype Evaluator = Evaluator(performances: seq<Performance>)

  /** `addPerformance`: appends one record at the end. */
  function AddPerformance(e: Evaluator, p: Performance): (e': Evaluator)
    ensures |e'.performances| == |e.performances| + 1
    ensures e'.performances[..|e.performances|] == e.performances
    ensures e'.performances[|e.performances|] == p
  {
    Evaluator(e.performances + [p])
  }

  /** Position `k` holds the first maximum of `key`: nothing is larger, and
      everything before it is strictly smaller. */
  ghost predicate IsFirstMaxAt(ps: seq<Performance>, key: Performance -> real, k: nat) {
    && k < |ps|
    && (forall j :: 0 <= j < |ps| ==> key(ps[j]) <= key(ps[k]))
    && (forall j :: 0 <= j < k ==> key(ps[j]) < key(ps[k]))
  }

  /** At most one position is the first maximum. */
  lemma FirstMaxUnique(ps: seq<Performance>, key: Performance -> real, k1: nat, k2: nat)
    requires IsFirstMaxAt(ps, key, k1) && IsFirstMaxAt(ps, key, k2)
    ensures k1 == k2
  {
    var a, b := key(ps[k1]), key(ps[k2]);
    assert a <= b && b <= a;
  }

  /** The candidate `Collections.max` ends with: it starts from the first
      element and moves to a later one only when that compares strictly
      greater. */
  function FirstMaxIndex(ps: seq<Performance>, key: Performance -> real): (k: nat)
    requires |ps| > 0
    ensures IsFirstMaxAt(ps, key, k)
  {
    if |ps| == 1 then 0
    else
      var k := FirstMaxIndex(ps[..|ps| - 1], key);
      assert forall j :: 0 <= j < |ps| - 1 ==> ps[..|ps| - 1][j] == ps[j];
      if key(ps[|ps| - 1]) > key(ps[k]) then |ps| - 1 else k
  }

  /** `Collections.max(list, Comparator.comparing(key))`: the first record
      of maximal key, or `NoSuchElementException` on an empty list. */
  function MaxBy(ps: seq<Performance>, key: Performance -> real): (r: Result<Performance>)
    ensures r.Err? <==> |ps| == 0
    ensures r.Err? ==> r.error == NoSuchElement
    ensures r.Ok? ==> exists k: nat :: IsFirstMaxAt(ps, key, k) && r.value == ps[k]
  {
    if |ps| == 0 then Err(NoSuchElement) else Ok(ps[FirstMaxIndex(ps, key)])
  }

  function TotalKey(p: Performance): real { p.totalScore }
  function SpeedKey(p: Performance): real { SpeedScore(p) }
  function SecurityKey(p: Performance): real { SecurityScore(p) }
  function SmallFilesKey(p: Performance): real { GetScore(p, EncryptionTimeKey) }
  function LargeFilesKey(p: Performance): real { GetScore(p, ThroughputKey) }

  /** `getBestAlgorithm`: the first record of highest total. */
  function GetBestAlgorithm(ps: seq<Performance>): (r: Result<Performance>)
    ensures r.Err? <==> |ps| == 0
    ensures r.Ok? ==> exists k: nat :: (k < |ps| && r.value == ps[k]
      && (forall j :: 0 <= j < |ps| ==> ps[j].totalScore <= r.value.totalScore)
      && (forall j :: 0 <= j < k ==> ps[j].totalScore < r.value.totalScore))
  {
    MaxBy(ps, TotalKey)
  }

  /** `getBestForSpeed`: the first record of highest average of the time and
      throughput scores. */
  function GetBestForSpeed(ps: seq<Performance>): (r: Result<Performance>)
    ensures r.Err? <==> |ps| == 0
    ensures r.Ok? ==> exists k: nat :: (k < |ps| && r.value == ps[k]
      && (forall j :: 0 <= j < |ps| ==> SpeedScore(ps[j]) <= SpeedScore(r.value))
      && (forall j :: 0 <= j < k ==> SpeedScore(ps[j]) < SpeedScore(r.value)))
  {
    MaxBy(ps, SpeedKey)
  }

  /** `getBestForSecurity`: the first record of highest average of the
      avalanche, entropy and key-length scores. */
  function GetBestForSecurity(ps: seq<Performance>): (r: Result<Performance>)
    ensures r.Err? <==> |ps| == 0
    ensures r.Ok? ==> exists k: nat :: (k < |ps| && r.value == ps[k]
      && (forall j :: 0 <= j < |ps| ==> SecurityScore(ps[j]) <= SecurityScore(r.value))
      && (forall j :: 0 <= j < k ==> SecurityScore(ps[j]) < SecurityScore(r.value)))
  {
    MaxBy(ps, SecurityKey)
  }

  /** `getBestForSmallFiles`: the first record of highest time score. */
  function GetBestForSmallFiles(ps: seq<Performance>): (r: Result<Performance>)
    ensures r.Err? <==> |ps| == 0
    ensures r.Ok? ==> exists k: nat :: (k < |ps| && r.value == ps[k]
      && (forall j :: 0 <= j < |ps| ==> GetScore(ps[j], EncryptionTimeKey) <= GetScore(r.value, EncryptionTimeKey))
      && (forall j :: 0 <= j < k ==> GetScore(ps[j], EncryptionTimeKey) < GetScore(r.value, EncryptionTimeKey)))
  {
    MaxBy(ps, SmallFilesKey)
  }

  /** `getBestForLargeFiles`: the first record of highest throughput score. */
  function GetBestForLargeFiles(ps: seq<Performance>): (r: Result<Performance>)
    ensures r.Err? <==> |ps| == 0
    ensures r.Ok? ==> exists k: nat :: (k < |ps| && r.value == ps[k]
      && (forall j :: 0 <= j < |ps| ==> GetScore(ps[j], ThroughputKey) <= GetScore(r.value, ThroughputKey))
      && (forall j :: 0 <= j < k ==> GetScore(ps[j], ThroughputKey) < GetScore(r.value, ThroughputKey)))
  {
    MaxBy(ps, LargeFilesKey)
  }

  /** The five recommendations printed after the comparison table. */
  datatype Recommendation = Recommendation(
    bestOverall: Performance,
    bestForSpeed: Performance,
    bestForSecurity: Performance,
    bestForSmallFiles: Performance,
    bestForLargeFiles: Performance)

  /** The five `getBest*` calls in order. They fail together: on an empty
      list the first of them already raises `NoSuchElementException`. */
  function Recommend(ps: seq<Performance>): (r: Result<Recommendation>)
    ensures r.Err? <==> |ps| == 0
    ensures r.Err? ==> r.error == NoSuchElement
    ensures r.Ok? ==> && GetBestAlgorithm(ps) == Ok(r.value.bestOverall)
                      && GetBestForSpeed(ps) == Ok(r.value.bestForSpeed)
                      && GetBestForSecurity(ps) == Ok(r.value.bestForSecurity)
                      && GetBestForSmallFiles(ps) == Ok(r.value.bestForSmallFiles)
                      && GetBestForLargeFiles(ps) == Ok(r.value.bestForLargeFiles)
  {
    if |ps| == 0 then GetBestAlgorithm(ps).PropagateFailure()
    else
      Ok(Recommendation(
        GetBestAlgorithm(ps).value,
        GetBestForSpeed(ps).value,
        GetBestForSecurity(ps).value,
        GetBestForSmallFiles(ps).value,
        GetBestForLargeFiles(ps).value))
  }

  /** Totals never increase along the list. */
  ghost predicate NonIncreasing(ps: seq<Performance>) {
    forall i, j :: 0 <= i < j < |ps| ==> ps[i].totalScore >= ps[j].totalScore
  }

  /** The records of total `s`, in list order. A sort is stable exactly when
      it keeps every such subsequence. */
  function WithTotal(ps: seq<Performance>, s: real): seq<Performance> {
    if |ps| == 0 then [] else IfTotal(ps[0], s) + WithTotal(ps[1..], s)
  }

  /** `[p]` when `p` has total `s`, else nothing. */
  function IfTotal(p: Performance, s: real): seq<Performance> {
    if p.totalScore == s then [p] else []
  }

  /** Inserts `x` into a non-increasing list ahead of every record whose
      total is not greater than its own. */
  function InsertDescending(x: Performance, ps: seq<Performance>): (r: seq<Performance>)
    ensures NonIncreasing(ps) ==> NonIncreasing(r)
    ensures multiset(r) == multiset(ps) + multiset{x}
  {
    if |ps| == 0 then [x]
    else if x.totalScore >= ps[0].totalScore then
      InsertAtHead(x, ps);
      [x] + ps
    else
      var rest := InsertDescending(x, ps[1..]);
      assert ps == [ps[0]] + ps[1..];
      InsertBehindHead(x, ps, rest);
      [ps[0]] + rest
  }

  lemma InsertAtHead(x: Performance, ps: seq<Performance>)
    requires |ps| > 0 && x.totalScore >= ps[0].totalScore
    ensures NonIncreasing(ps) ==> NonIncreasing([x] + ps)
  {
    if NonIncreasing(ps) {
      PrependNonIncreasing(x, ps);
    }
  }

  lemma InsertBehindHead(x: Performance, ps: seq<Performance>, rest: seq<Performance>)
    requires |ps| > 0 && x.totalScore < ps[0].totalScore
    requires multiset(rest) == multiset(ps[1..]) + multiset{x}
    requires NonIncreasing(ps[1..]) ==> NonIncreasing(rest)
    ensures NonIncreasing(ps) ==> NonIncreasing([ps[0]] + rest)
  {
    if NonIncreasing(ps) {
      assert NonIncreasing(ps[1..]);
      BelowHead(x, ps, rest);
      PrependNonIncreasing(ps[0], rest);
    }
  }

  lemma BelowHead(x: Performance, ps: seq<Performance>, rest: seq<Performance>)
    requires |ps| > 0 && NonIncreasing(ps) && x.totalScore < ps[0].totalScore
    requires multiset(rest) == multiset(ps[1..]) + multiset{x}
    ensures forall j :: 0 <= j < |rest| ==> rest[j].totalScore <= ps[0].totalScore
  {
    forall j | 0 <= j < |rest|
      ensures rest[j].totalScore <= ps[0].totalScore
    {
      assert rest[j] in multiset(rest);
      if rest[j] != x {
        assert rest[j] in multiset(ps[1..]);
        var i :| 0 <= i < |ps[1..]| && ps[1..][i] == rest[j];
        assert ps[i + 1] == rest[j];
      }
    }
  }

  lemma PrependNonIncreasing(y: Performance, rest: seq<Performance>)
    requires NonIncreasing(rest)
    requires forall j :: 0 <= j < |rest| ==> rest[j].totalScore <= y.totalScore
    ensures NonIncreasing([y] + rest)
  {
    var r := [y] + rest;
    forall i, j | 0 <= i < j < |r|
      ensures r[i].totalScore >= r[j].totalScore
    {
      if i > 0 {
        assert r[i] == rest[i - 1] && r[j] == rest[j - 1];
      } else {
        assert r[j] == rest[j - 1];
      }
    }
  }

  /** `getSortedPerformances`: a new list holding the same records, totals
      non-increasing, records of equal total in their original order (the
      stored list itself is a value and stays as it was). */
  function SortDescending(ps: seq<Performance>): (r: seq<Performance>)
    ensures NonIncreasing(r)
    ensures multiset(r) == multiset(ps)
    ensures |r| == |ps|
    ensures forall s :: WithTotal(r, s) == WithTotal(ps, s)
  {
    if |ps| == 0 then []
    else
      assert ps == [ps[0]] + ps[1..];
      var rest := SortDescending(ps[1..]);
      forall s | true
        ensures WithTotal(InsertDescending(ps[0], rest), s) == WithTotal(ps, s)
      {
        InsertKeepsOrderOfTies(ps[0], rest, s);
      }
      InsertDescending(ps[0], rest)
  }

  /** Inserting `x` puts it ahead of every record of equal total and leaves
      the order of the others alone. */
  lemma {:induction false} InsertKeepsOrderOfTies(x: Performance, ps: seq<Performance>, s: real)
    ensures WithTotal(InsertDescending(x, ps), s) == IfTotal(x, s) + WithTotal(ps, s)
  {
    if |ps| == 0 {
      assert InsertDescending(x, ps) == [x] + ps;
      WithTotalCons(x, ps, s);
    } else if x.totalScore >= ps[0].totalScore {
      assert InsertDescending(x, ps) == [x] + ps;
      WithTotalCons(x, ps, s);
    } else {
      var rest := InsertDescending(x, ps[1..]);
      assert InsertDescending(x, ps) == [ps[0]] + rest;
      InsertKeepsOrderOfTies(x, ps[1..], s);
      WithTotalCons(ps[0], rest, s);
      assert ps == [ps[0]] + ps[1..];
      WithTotalCons(ps[0], ps[1..], s);
      assert IfTotal(x, s) == [] || IfTotal(ps[0], s) == [];
    }
  }

  /** The subsequence of total `s` of a list with head `y`. */
  lemma WithTotalCons(y: Performance, rest: seq<Performance>, s: real)
    ensures WithTotal([y] + rest, s) == IfTotal(y, s) + WithTotal(rest, s)
  {
    assert ([y] + rest)[1..] == rest;
  }

  /** The first record of total `s` heads the subsequence of total `s`. */
  lemma {:induction false} WithTotalHead(ps: seq<Performance>, s: real, k: nat)
    requires k < |ps| && ps[k].totalScore == s
    requires forall j :: 0 <= j < k ==> ps[j].totalScore != s
    ensures |WithTotal(ps, s)| > 0 && WithTotal(ps, s)[0] == ps[k]
  {
    if k > 0 {
      WithTotalHead(ps[1..], s, k - 1);
    }
  }

  /** On a sorted list the first maximum is the head. */
  lemma SortedBestIsHead(ps: seq<Performance>)
    requires |ps| > 0 && NonIncreasing(ps)
    ensures GetBestAlgorithm(ps) == Ok(ps[0])
  {
    assert IsFirstMaxAt(ps, TotalKey, 0);
    var k: nat :| IsFirstMaxAt(ps, TotalKey, k) && GetBestAlgorithm(ps).value == ps[k];
    FirstMaxUnique(ps, TotalKey, k, 0);
  }

  /** Because the sort is stable and `Collections.max` keeps the first
      maximum, the best overall record of the sorted list (its head) is the
      best overall record of the unsorted list. */
  lemma SortPreservesBestOverall(ps: seq<Performance>)
    requires |ps| > 0
    ensures GetBestAlgorithm(SortDescending(ps)) == Ok(SortDescending(ps)[0])
    ensures GetBestAlgorithm(ps) == Ok(SortDescending(ps)[0])
  {
    var r := SortDescending(ps);
    SortedBestIsHead(r);
    var k := FirstMaxIndex(ps, TotalKey);
    assert GetBestAlgorithm(ps) == Ok(ps[k]);
    var m := r[0].totalScore;
    assert ps[k].totalScore == m by {
      SameMaximum(ps, r, k);
    }
    WithTotalHead(r, m, 0);
    WithTotalHead(ps, m, k);
    assert WithTotal(r, m) == WithTotal(ps, m);
  }

  /** A permutation sorted non-increasingly starts with the maximum of the
      original list. */
  lemma SameMaximum(ps: seq<Performance>, r: seq<Performance>, k: nat)
    requires |r| > 0 && NonIncreasing(r) && multiset(r) == multiset(ps)
    requires IsFirstMaxAt(ps, TotalKey, k)
    ensures ps[k].totalScore == r[0].totalScore
  {
    assert r[0] in multiset(ps);
    var i :| 0 <= i < |ps| && ps[i] == r[0];
    assert TotalKey(ps[i]) <= TotalKey(ps[k]);
    assert ps[k] in multiset(r);
    var j :| 0 <= j < |r| && r[j] == ps[k];
  }

  /** Of two records with equal speed scores `getBestForSpeed` keeps the
      first. */
  lemma SpeedTieKeepsFirst(x: Performance, y: Performance)
    requires SpeedScore(x) == SpeedScore(y)
    ensures GetBestForSpeed([x, y]) == Ok(x)
  {
    assert [x, y][..1] == [x];
  }

  /** Two records of different totals come out of the sort higher first. */
  lemma SortTwo(a: Performance, b: Performance)
    requires a.totalScore < b.totalScore
    ensures SortDescending([a, b]) == [b, a]
  {
    var r := SortDescending([a, b]);
    assert r[0] in multiset([a, b]) && r[1] in multiset([a, b]);
    assert r[0].totalScore >= r[1].totalScore;
  }

  /** Only the best overall choice is independent of the list order: two
      records with equal speed scores and different totals make the first
      maximum of `getBestForSpeed` differ between insertion order and the
      sorted order. */
  lemma SpeedChoiceDependsOnOrder()
    ensures exists ps: seq<Performance> :: GetBestForSpeed(ps) != GetBestForSpeed(SortDescending(ps))
  {
    var a := NewPerformance("A");
    var b := NewPerformance("B").(totalScore := 1.0);
    SortTwo(a, b);
    SpeedTieKeepsFirst(a, b);
    SpeedTieKeepsFirst(b, a);
    assert GetBestForSpeed([a, b]) != GetBestForSpeed(SortDescending([a, b]));
  }
}

=== FILE: rsa_framing.dfy ===
/** The framing the RSA wrapper puts around the provider's single-block
    `doFinal`: the plaintext is cut into 245-byte blocks (k - 11 bytes for a
    256-byte modulus under RSAES-PKCS1-v1_5, section 7.2.1 of RFC 8017), the
    ciphertext into 256-byte blocks, and the per-block outputs are
    concatenated in order. */
module RsaFraming {
  import opened JavaNumbers
  import opened Outcomes
  import opened ByteMetrics

  /** Modulus length in bytes of the 2048-bit key pair. */
  const ModulusBytes: nat := 256
  /** Bytes of PKCS #1 v1.5 padding overhead per block. */
  const Pkcs1Overhead: nat := 11
  const InputBlockSize: nat := 245
  const OutputBlockSize: nat := 256

  /** The in-order concatenation of a list of blocks. */
  function Concat(blocks: seq<seq<byte>>): seq<byte> {
    if |blocks| == 0 then [] else Concat(blocks[..|blocks| - 1]) + blocks[|blocks| - 1]
  }

  lemma {:induction false} ConcatAppend(blocks: seq<seq<byte>>, b: seq<byte>)
    ensures Concat(blocks + [b]) == Concat(blocks) + b
  {
    assert (blocks + [b])[..|blocks|] == blocks;
  }

  lemma {:induction false} ConcatPrepend(b: seq<byte>, blocks: seq<seq<byte>>)
    ensures Concat([b] + blocks) == b + Concat(blocks)
  {
    if |blocks| == 0 {
      assert [b] + blocks == [b];
      assert Concat([b]) == Concat([]) + b;
    } else {
      var init := blocks[..|blocks| - 1];
      var last := blocks[|blocks| - 1];
      assert [b] + blocks == ([b] + init) + [last];
      ConcatAppend([b] + init, last);
      ConcatPrepend(b, init);
      ConcatAppend(init, last);
      assert blocks == init + [last];
    }
  }

  /** The `for (i = 0; i < length; i += size)` loop with
      `blockLength = Math.min(size, length - i)`: the data cut into
      consecutive blocks. Every block but the last has exactly `size`
      bytes, the last has 1 to `size`, there are ceil(|data| / size) of
      them, and together they are the data again. */
  function Blocks(data: seq<byte>, size: nat): (r: seq<seq<byte>>)
    requires size > 0
    ensures Concat(r) == data
    ensures forall i :: 0 <= i < |r| - 1 ==> |r[i]| == size
    ensures |r| > 0 ==> 1 <= |r[|r| - 1]| <= size
    ensures |r| == (|data| + size - 1) / size
    decreases |data|
  {
    if |data| == 0 then
      DivUnique(size - 1, size, 0, size - 1);
      []
    else if |data| <= size then
      assert Concat([data]) == Concat([]) + data;
      DivUnique(|data| + size - 1, size, 1, |data| - 1);
      [data]
    else
      var rest := Blocks(data[size..], size);
      ConcatPrepend(data[..size], rest);
      assert data == data[..size] + data[size..];
      CeilStep(|data|, size);
      [data[..size]] + rest
  }

  lemma CeilStep(n: nat, size: nat)
    requires 0 < size < n
    ensures (n + size - 1) / size == (n - size + size - 1) / size + 1
  {
    var m := n - size + size - 1;
    var q, r := m / size, m % size;
    assert m == q * size + r;
    assert n + size - 1 == (q + 1) * size + r;
    DivUnique(n + size - 1, size, q + 1, r);
  }

  lemma DivUnique(n: int, d: int, q: int, r: int)
    requires d > 0 && 0 <= r < d && n == q * d + r
    ensures n / d == q
  {
    var q', r' := n / d, n % d;
    assert n == q' * d + r';
    if q > q' {
      MulStep(q', q, d);
    } else if q < q' {
      MulStep(q, q', d);
    }
  }

  /** A larger multiplier adds at least one more divisor. */
  lemma MulStep(a: int, b: int, d: int)
    requires a < b && d > 0
    ensures b * d >= a * d + d
  {
    var k := b - a - 1;
    assert b * d == a * d + d + k * d;
  }

  /** Cutting a concatenation of full blocks at the block size gives the
      blocks back. */
  lemma {:induction false} BlocksOfFullBlocks(blocks: seq<seq<byte>>, size: nat)
    requires size > 0
    requires forall i :: 0 <= i < |blocks| ==> |blocks[i]| == size
    ensures Blocks(Concat(blocks), size) == blocks
  {
    if |blocks| > 0 {
      var rest := blocks[1..];
      assert blocks == [blocks[0]] + rest;
      ConcatPrepend(blocks[0], rest);
      var c := Concat(blocks);
      assert c[..size] == blocks[0];
      assert c[size..] == Concat(rest);
      BlocksOfFullBlocks(rest, size);
      BlocksLength(rest, size);
      if |rest| == 0 {
        assert c == blocks[0];
        assert Blocks(c, size) == [c];
      } else {
        assert |c| > size;
        assert Blocks(c, size) == [c[..size]] + Blocks(c[size..], size);
      }
    }
  }

  lemma {:induction false} BlocksLength(blocks: seq<seq<byte>>, size: nat)
    requires forall i :: 0 <= i < |blocks| ==> |blocks[i]| == size
    ensures |Concat(blocks)| == size * |blocks|
  {
    if |blocks| > 0 {
      BlocksLength(blocks[..|blocks| - 1], size);
    }
  }

  /** The provider's `doFinal` on the block at a given position of one
      call. Under PKCS #1 v1.5 each encryption draws fresh random padding
      (section 7.2.1 of RFC 8017), so two equal blocks of one plaintext may
      encrypt differently; the position lets the function say so, without
      requiring it. */
  type BlockCipher = (nat, seq<byte>) -> Result<seq<byte>>

  /** `cipher.doFinal(chunk)` for every block in order, the outputs written
      one after another; the first provider exception ends the call. */
  function ApplyBlocks(blocks: seq<seq<byte>>, doFinal: BlockCipher): (r: Result<seq<seq<byte>>>)
    ensures r.Ok? <==> forall i :: 0 <= i < |blocks| ==> doFinal(i, blocks[i]).Ok?
    ensures r.Ok? ==> |r.value| == |blocks|
    ensures r.Ok? ==> forall i :: 0 <= i < |blocks| ==> doFinal(i, blocks[i]) == Ok(r.value[i])
    ensures r.Err? ==> FirstFailure(blocks, doFinal, r.error)
  {
    if |blocks| == 0 then Ok([])
    else
      var n := |blocks| - 1;
      var init := ApplyBlocks(blocks[..n], doFinal);
      if init.Err? then Err(init.error)
      else
        var last := doFinal(n, blocks[n]);
        if last.Err? then Err(last.error)
        else Ok(init.value + [last.value])
  }

  /** Block `i` is the first whose `doFinal` throws, and it throws `e`. */
  ghost predicate FirstFailure(blocks: seq<seq<byte>>, doFinal: BlockCipher, e: Exception) {
    exists i :: 0 <= i < |blocks| && doFinal(i, blocks[i]) == Err(e)
      && forall j :: 0 <= j < i ==> doFinal(j, blocks[j]).Ok?
  }

  /** `RSA.encrypt`: 245-byte blocks through the public-key `doFinal`.
      The ciphertext is the per-block outputs in block order; a failing
      block's exception is the call's exception. */
  function RsaEncrypt(plaintext: seq<byte>, doFinal: BlockCipher): (r: Result<seq<byte>>)
    ensures r.Ok? ==> exists outs: seq<seq<byte>> :: (|outs| == |Blocks(plaintext, InputBlockSize)|
      && Concat(outs) == r.value
      && forall i :: 0 <= i < |outs| ==> doFinal(i, Blocks(plaintext, InputBlockSize)[i]) == Ok(outs[i]))
    ensures r.Err? ==> FirstFailure(Blocks(plaintext, InputBlockSize), doFinal, r.error)
  {
    var outs :- ApplyBlocks(Blocks(plaintext, InputBlockSize), doFinal);
    Ok(Concat(outs))
  }

  /** `RSA.decrypt`: 256-byte blocks through the private-key `doFinal`,
      framed the same way. */
  function RsaDecrypt(ciphertext: seq<byte>, doFinal: BlockCipher): (r: Result<seq<byte>>)
    ensures r.Ok? ==> exists outs: seq<seq<byte>> :: (|outs| == |Blocks(ciphertext, OutputBlockSize)|
      && Concat(outs) == r.value
      && forall i :: 0 <= i < |outs| ==> doFinal(i, Blocks(ciphertext, OutputBlockSize)[i]) == Ok(outs[i]))
    ensures r.Err? ==> FirstFailure(Blocks(ciphertext, OutputBlockSize), doFinal, r.error)
  {
    var outs :- ApplyBlocks(Blocks(ciphertext, OutputBlockSize), doFinal);
    Ok(Concat(outs))
  }

  /** An empty plaintext has no blocks, so its ciphertext is empty and no
      `doFinal` runs. */
  lemma RsaEncryptEmpty(doFinal: BlockCipher)
    ensures RsaEncrypt([], doFinal) == Ok([])
  {
  }

  /** Equal blocks need not give equal ciphertext blocks: with padding that
      differs between positions, the two 245-byte blocks of 490 zero bytes
      encrypt to different outputs. */
  lemma EqualBlocksMayDiffer()
    ensures exists p: seq<byte>, enc: BlockCipher ::
      var blocks := Blocks(p, InputBlockSize);
      && |blocks| == 2 && blocks[0] == blocks[1]
      && ApplyBlocks(blocks, enc).Ok?
      && ApplyBlocks(blocks, enc).value[0] != ApplyBlocks(blocks, enc).value[1]
  {
    var p: seq<byte> := seq(2 * InputBlockSize, _ => 0);
    var enc: BlockCipher := (i: nat, b: seq<byte>) => Ok(if i == 0 then [0] else [1]);
    var blocks := Blocks(p, InputBlockSize);
    var half := p[InputBlockSize..];
    assert Blocks(half, InputBlockSize) == [half];
    assert blocks == [p[..InputBlockSize]] + [half];
    assert p[..InputBlockSize] == half;
    var r := ApplyBlocks(blocks, enc);
    assert enc(0, blocks[0]) == Ok([0]) && enc(1, blocks[1]) == Ok([1]);
    assert r.Ok? && r.value[0] != r.value[1];
  }

  /** The round trip: when every block of 1..245 bytes encrypts to exactly
      256 bytes and the private-key `doFinal` at the same position inverts
      the public-key one, the 256-byte cuts of the ciphertext realign with
      the encrypted blocks and decryption returns the plaintext. */
  lemma RsaRoundTrip(p: seq<byte>, enc: BlockCipher, dec: BlockCipher)
    requires forall i: nat, b :: 1 <= |b| <= InputBlockSize ==> enc(i, b).Ok? && |enc(i, b).value| == OutputBlockSize
    requires forall i: nat, b :: 1 <= |b| <= InputBlockSize ==> dec(i, enc(i, b).value) == Ok(b)
    ensures RsaEncrypt(p, enc).Ok?
    ensures RsaDecrypt(RsaEncrypt(p, enc).value, dec) == Ok(p)
  {
    var blocks := Blocks(p, InputBlockSize);
    var outs := EncryptsBlockwise(p, enc);
    BlocksOfFullBlocks(outs, OutputBlockSize);
    BlockSizesInRange(p);
    forall i | 0 <= i < |blocks|
      ensures dec(i, outs[i]) == Ok(blocks[i])
    {
      assert 1 <= |blocks[i]| <= InputBlockSize;
    }
    DecryptAll(blocks, outs, dec);
    assert ApplyBlocks(Blocks(Concat(outs), OutputBlockSize), dec) == Ok(blocks);
  }

  /** With full-size block outputs, the ciphertext is 256 bytes for every
      started 245 bytes of plaintext. */
  lemma RsaCiphertextLength(p: seq<byte>, enc: BlockCipher)
    requires forall i: nat, b :: 1 <= |b| <= InputBlockSize ==> enc(i, b).Ok? && |enc(i, b).value| == OutputBlockSize
    ensures RsaEncrypt(p, enc).Ok?
    ensures |RsaEncrypt(p, enc).value| == OutputBlockSize * ((|p| + InputBlockSize - 1) / InputBlockSize)
  {
    var outs := EncryptsBlockwise(p, enc);
    BlocksLength(outs, OutputBlockSize);
  }

  /** When every block of 1..245 bytes encrypts to 256 bytes, the
      ciphertext is the concatenation of those 256-byte outputs. */
  lemma EncryptsBlockwise(p: seq<byte>, enc: BlockCipher) returns (outs: seq<seq<byte>>)
    requires forall i: nat, b :: 1 <= |b| <= InputBlockSize ==> enc(i, b).Ok? && |enc(i, b).value| == OutputBlockSize
    ensures RsaEncrypt(p, enc) == Ok(Concat(outs))
    ensures |outs| == |Blocks(p, InputBlockSize)|
    ensures forall i :: 0 <= i < |outs| ==> outs[i] == enc(i, Blocks(p, InputBlockSize)[i]).value
    ensures forall i :: 0 <= i < |outs| ==> |outs[i]| == OutputBlockSize
  {
    var blocks := Blocks(p, InputBlockSize);
    BlockSizesInRange(p);
    outs := EncryptAll(blocks, enc);
  }

  /** Every 245-byte cut has between 1 and 245 bytes. */
  lemma BlockSizesInRange(p: seq<byte>)
    ensures forall i :: 0 <= i < |Blocks(p, InputBlockSize)| ==> 1 <= |Blocks(p, InputBlockSize)[i]| <= InputBlockSize
  {
    var blocks := Blocks(p, InputBlockSize);
    forall i | 0 <= i < |blocks|
      ensures 1 <= |blocks[i]| <= InputBlockSize
    {
      if i < |blocks| - 1 {
        assert |blocks[i]| == InputBlockSize;
      }
    }
  }

  lemma {:induction false} EncryptAll(blocks: seq<seq<byte>>, enc: BlockCipher) returns (outs: seq<seq<byte>>)
    requires forall i :: 0 <= i < |blocks| ==> enc(i, blocks[i]).Ok? && |enc(i, blocks[i]).value| == OutputBlockSize
    ensures ApplyBlocks(blocks, enc) == Ok(outs)
    ensures |outs| == |blocks|
    ensures forall i :: 0 <= i < |outs| ==> outs[i] == enc(i, blocks[i]).value && |outs[i]| == OutputBlockSize
  {
    if |blocks| == 0 {
      outs := [];
    } else {
      var n := |blocks| - 1;
      var init := EncryptAll(blocks[..n], enc);
      outs := init + [enc(n, blocks[n]).value];
    }
  }

  lemma {:induction false} DecryptAll(blocks: seq<seq<byte>>, outs: seq<seq<byte>>, dec: BlockCipher)
    requires |outs| == |blocks|
    requires forall i :: 0 <= i < |blocks| ==> dec(i, outs[i]) == Ok(blocks[i])
    ensures ApplyBlocks(outs, dec) == Ok(blocks)
  {
    if |blocks| > 0 {
      DecryptAll(blocks[..|blocks| - 1], outs[..|outs| - 1], dec);
      assert blocks == blocks[..|blocks| - 1] + [blocks[|blocks| - 1]];
    }
  }
}

=== FILE: runner.dfy ===
/** The measurement loop shared by the console entry point (`Main.main`)
    and the GUI worker (`runEncryptionAnalysis`), and what each does with
    the records afterwards. Clocks, the random sources inside the ciphers
    and the floating-point entropy formula are parameters. */
module Runner {
  import opened JavaNumbers
  import opened Outcomes
  import opened ByteMetrics
  import opened Scoring
  import opened Normalizer
  import opened Ranking
  import opened KeyLength

  /** One entry of the `algorithms` list as the loop sees it: its name, the
      length of its key's encoded form, and its `encrypt`. Every wrapper's
      `getKeyLength()` is `getEncoded().length * 8` in Java `int`, which is
      `KeyBits`. The AES, DES, TDES and Blowfish
      wrappers run in ECB mode and PBE reuses the salt drawn by its
      constructor, so those are deterministic; ChaCha20 draws a fresh nonce
      on every call and RSA fresh padding on every block. `encrypt` also
      takes the number of the call, which lets it vary between calls
      without requiring it: the loop makes calls 3i, 3i + 1 and 3i + 2 for
      algorithm i. */
  datatype Algorithm = Algorithm(
    name: string,
    encodedKeyLength: nat,
    encrypt: (nat, seq<byte>) -> Result<seq<byte>>)
  {
    /** `getKeyLength()`. */
    function KeyBits(): Int32 {
      EncodedKeyBits(encodedKeyLength)
    }
  }

  /** What the `nanoTime` pair around the speed encryption yields: the
      elapsed milliseconds and the MB/s throughput. */
  datatype Timing = Timing(encryptionTimeMs: real, throughputMBps: real)

  /** One iteration of the loop body, in the order the source runs it:
      the speed encryption, the avalanche pair (original, then the flipped
      copy), the entropy of the speed ciphertext's byte histogram, the key
      length. The first exception ends the iteration. */
  function MeasureOne(a: Algorithm, i: nat, plaintext: seq<byte>, timing: Timing,
                      shannon: seq<nat> -> real): (r: Result<Performance>)
    ensures a.encrypt(3 * i, plaintext).Err? ==> r == Err(a.encrypt(3 * i, plaintext).error)
    ensures a.encrypt(3 * i, plaintext).Ok? && a.encrypt(3 * i + 1, plaintext).Err? ==>
      r == Err(a.encrypt(3 * i + 1, plaintext).error)
    ensures a.encrypt(3 * i, plaintext).Ok? && a.encrypt(3 * i + 1, plaintext).Ok? && |plaintext| == 0 ==>
      r == Err(IndexOutOfBounds(0, 0))
    ensures r.Ok? <==> && a.encrypt(3 * i, plaintext).Ok? && a.encrypt(3 * i + 1, plaintext).Ok?
                       && |plaintext| > 0 && a.encrypt(3 * i + 2, FlipFirstBit(plaintext).value).Ok?
    ensures r.Err? && |plaintext| > 0 && a.encrypt(3 * i, plaintext).Ok? && a.encrypt(3 * i + 1, plaintext).Ok? ==>
      r == Err(a.encrypt(3 * i + 2, FlipFirstBit(plaintext).value).error)
    ensures r.Ok? ==>
      var original := a.encrypt(3 * i + 1, plaintext).value;
      var modified := a.encrypt(3 * i + 2, FlipFirstBit(plaintext).value).value;
      && r.value.name == a.name
      && r.value.encryptionTime == timing.encryptionTimeMs
      && r.value.throughput == timing.throughputMBps
      && r.value.avalancheEffect == Wrap32(Hamming(original, modified))
      && (|original| < 0x1000_0000 ==> r.value.avalancheEffect == Hamming(original, modified))
      && r.value.entropy == shannon(Histogram(a.encrypt(3 * i, plaintext).value))
      && r.value.keyLength == EncodedKeyBits(a.encodedKeyLength)
      && r.value.keyLength % 8 == 0
      && r.value.scores == map[]
      && r.value.totalScore == 0.0
  {
    var ciphertext :- a.encrypt(3 * i, plaintext);
    var originalCipher :- a.encrypt(3 * i + 1, plaintext);
    var modifiedPlaintext :- FlipFirstBit(plaintext);
    var modifiedCipher :- a.encrypt(3 * i + 2, modifiedPlaintext);
    var distance := Hamming(originalCipher, modifiedCipher);
    Ok(NewPerformance(a.name).(
      encryptionTime := timing.encryptionTimeMs,
      throughput := timing.throughputMBps,
      avalancheEffect := Wrap32(distance),
      entropy := shannon(Histogram(ciphertext)),
      keyLength := a.KeyBits()))
  }

  /** One iteration of the loop for a given input file, clock and entropy
      formula. */
  function Measurer(plaintext: seq<byte>, timings: nat -> Timing, shannon: seq<nat> -> real)
    : (Algorithm, nat) -> Result<Performance>
  {
    (a: Algorithm, i: nat) => MeasureOne(a, i, plaintext, timings(i), shannon)
  }

  /** The `for (EncryptionAlgorithm algo : algorithms)` loop, given how one
      iteration goes: one record per algorithm, in list order, or the
      exception of the first iteration that fails (nothing catches inside
      the loop, so the batch stops). Each finished record is appended with
      `addPerformance`. */
  function BuildRecords(algs: seq<Algorithm>, measure: (Algorithm, nat) -> Result<Performance>)
    : (r: Result<seq<Performance>>)
    ensures r.Ok? <==> forall i :: 0 <= i < |algs| ==> measure(algs[i], i).Ok?
    ensures r.Ok? ==> |r.value| == |algs|
    ensures r.Ok? ==> forall i :: 0 <= i < |algs| ==> measure(algs[i], i) == Ok(r.value[i])
    ensures r.Err? ==> exists i :: (0 <= i < |algs| && measure(algs[i], i) == Err(r.error)
      && forall j :: 0 <= j < i ==> measure(algs[j], j).Ok?)
  {
    if |algs| == 0 then Ok([])
    else
      var n := |algs| - 1;
      var init := BuildRecords(algs[..n], measure);
      if init.Err? then Err(init.error)
      else
        var last := measure(algs[n], n);
        if last.Err? then Err(last.error)
        else Ok(AddPerformance(Evaluator(init.value), last.value).performances)
  }

  /** What a finished run hands to the display: the list the comparison
      table shows, and the five recommendations. */
  datatype Report = Report(ranked: seq<Performance>, recommendation: Recommendation)

  /** `Main.main` after the file is chosen: the records are normalised,
      sorted by total, and `compareAndRecommend` picks the recommendations
      from the sorted list. */
  function RunMain(algs: seq<Algorithm>, plaintext: seq<byte>, timings: nat -> Timing,
                   shannon: seq<nat> -> real): (r: Result<Report>)
    ensures BuildRecords(algs, Measurer(plaintext, timings, shannon)).Err? ==>
      r == Err(BuildRecords(algs, Measurer(plaintext, timings, shannon)).error)
    ensures |algs| == 0 ==> r == Err(NoSuchElement)
    ensures r.Ok? <==> BuildRecords(algs, Measurer(plaintext, timings, shannon)).Ok? && |algs| > 0
    ensures r.Ok? ==>
      var normalized := NormalizeScores(BuildRecords(algs, Measurer(plaintext, timings, shannon)).value);
      && |r.value.ranked| == |algs|
      && multiset(r.value.ranked) == multiset(normalized)
      && NonIncreasing(r.value.ranked)
      && (forall s :: WithTotal(r.value.ranked, s) == WithTotal(normalized, s))
      && Recommend(r.value.ranked) == Ok(r.value.recommendation)
      && r.value.recommendation.bestOverall == r.value.ranked[0]
  {
    var records := BuildRecords(algs, Measurer(plaintext, timings, shannon));
    if records.Err? then Err(records.error)
    else
      var sorted := SortDescending(NormalizeScores(records.value));
      if |sorted| == 0 then Err(NoSuchElement)
      else
        SortedBestIsHead(sorted);
        Ok(Report(sorted, Recommend(sorted).value))
  }

  /** `runEncryptionAnalysis`: the same loop and normalisation; the table
      shows the sorted list, but `createRecommendations` is given the
      evaluator itself and so picks from the normalised list in insertion
      order. */
  function RunGui(algs: seq<Algorithm>, plaintext: seq<byte>, timings: nat -> Timing,
                  shannon: seq<nat> -> real): (r: Result<Report>)
    ensures BuildRecords(algs, Measurer(plaintext, timings, shannon)).Err? ==>
      r == Err(BuildRecords(algs, Measurer(plaintext, timings, shannon)).error)
    ensures |algs| == 0 ==> r == Err(NoSuchElement)
    ensures r.Ok? <==> BuildRecords(algs, Measurer(plaintext, timings, shannon)).Ok? && |algs| > 0
    ensures r.Ok? ==>
      var normalized := NormalizeScores(BuildRecords(algs, Measurer(plaintext, timings, shannon)).value);
      && |r.value.ranked| == |algs|
      && multiset(r.value.ranked) == multiset(normalized)
      && NonIncreasing(r.value.ranked)
      && (forall s :: WithTotal(r.value.ranked, s) == WithTotal(normalized, s))
      && Recommend(normalized) == Ok(r.value.recommendation)
  {
    var records := BuildRecords(algs, Measurer(plaintext, timings, shannon));
    if records.Err? then Err(records.error)
    else
      var normalized := NormalizeScores(records.value);
      if |normalized| == 0 then Err(NoSuchElement)
      else Ok(Report(SortDescending(normalized), Recommend(normalized).value))
  }

  /** The end of the GUI worker: a finished report, or the single log line
      the `catch` publishes. */
  datatype GuiOutcome = Finished(report: Report) | Published(line: string)

  /** `doInBackground`: any exception from the analysis becomes the line
      `"ERROR: "` followed by its message. */
  function RunInBackground(algs: seq<Algorithm>, plaintext: seq<byte>, timings: nat -> Timing,
                           shannon: seq<nat> -> real): (o: GuiOutcome)
    ensures o.Finished? <==> RunGui(algs, plaintext, timings, shannon).Ok?
    ensures o.Finished? ==> o.report == RunGui(algs, plaintext, timings, shannon).value
    ensures o.Published? ==>
      |o.line| >= 7 && o.line[..7] == "ERROR: " && o.line[7..] == Message(RunGui(algs, plaintext, timings, shannon).error)
  {
    var r := RunGui(algs, plaintext, timings, shannon);
    if r.Ok? then Finished(r.value) else Published(ErrorLine(r.error))
  }

  /** On the same inputs the console and the GUI fail together, show the
      same ranked table, and name the same best overall algorithm: the
      stable sort keeps the first of the highest-scoring records at the
      head, and that is the record `Collections.max` finds in insertion
      order. */
  lemma ConsoleAndGuiAgree(algs: seq<Algorithm>, plaintext: seq<byte>, timings: nat -> Timing,
                           shannon: seq<nat> -> real)
    ensures RunMain(algs, plaintext, timings, shannon).Ok? <==> RunGui(algs, plaintext, timings, shannon).Ok?
    ensures RunMain(algs, plaintext, timings, shannon).Ok? ==>
      && RunMain(algs, plaintext, timings, shannon).value.ranked == RunGui(algs, plaintext, timings, shannon).value.ranked
      && RunMain(algs, plaintext, timings, shannon).value.recommendation.bestOverall
         == RunGui(algs, plaintext, timings, shannon).value.recommendation.bestOverall
  {
    var records := BuildRecords(algs, Measurer(plaintext, timings, shannon));
    if records.Ok? && |algs| > 0 {
      var normalized := NormalizeScores(records.value);
      SortPreservesBestOverall(normalized);
    }
  }

  /** An exception in the first algorithm's iteration is the exception
      of the whole batch. */
  lemma FirstFailureAbortsBatch(algs: seq<Algorithm>, measure: (Algorithm, nat) -> Result<Performance>)
    requires |algs| > 0 && measure(algs[0], 0).Err?
    ensures BuildRecords(algs, measure) == Err(measure(algs[0], 0).error)
  {
    var records := BuildRecords(algs, measure);
    var i :| 0 <= i < |algs| && measure(algs[i], i) == Err(records.error)
      && forall j :: 0 <= j < i ==> measure(algs[j], j).Ok?;
  }

  /** The GUI line for the out-of-bounds exception of an empty input. */
  lemma IndexZeroLine()
    ensures "ERROR: " + Message(IndexOutOfBounds(0, 0)) == "ERROR: " + ("Index " + "0" + " out of bounds for length " + "0")
  {
    EmptyArrayIndexMessage();
  }

  /** An empty input file passes both encryptions of the first algorithm
      and then fails at the bit flip, which ends the whole batch. */
  lemma EmptyPlaintextAbortsBatch(algs: seq<Algorithm>, timings: nat -> Timing, shannon: seq<nat> -> real)
    requires |algs| > 0
    requires algs[0].encrypt(0, []).Ok? && algs[0].encrypt(1, []).Ok?
    ensures BuildRecords(algs, Measurer([], timings, shannon)) == Err(IndexOutOfBounds(0, 0))
  {
    assert Measurer([], timings, shannon)(algs[0], 0) == Err(IndexOutOfBounds(0, 0));
    FirstFailureAbortsBatch(algs, Measurer([], timings, shannon));
  }

  /** So the console run ends with the out-of-bounds exception and the GUI
      publishes its message. */
  lemma EmptyPlaintextAborts(algs: seq<Algorithm>, timings: nat -> Timing, shannon: seq<nat> -> real)
    requires |algs| > 0
    requires algs[0].encrypt(0, []).Ok? && algs[0].encrypt(1, []).Ok?
    ensures RunMain(algs, [], timings, shannon) == Err(IndexOutOfBounds(0, 0))
    ensures RunInBackground(algs, [], timings, shannon) == Published("ERROR: " + ("Index " + "0" + " out of bounds for length " + "0"))
  {
    EmptyPlaintextAbortsBatch(algs, timings, shannon);
    IndexZeroLine();
  }

  /** With no algorithms the loop produces nothing and the first `getBest*`
      call raises on the empty list; the GUI publishes "ERROR: null". */
  lemma NoAlgorithmsNoRecommendation(plaintext: seq<byte>, timings: nat -> Timing, shannon: seq<nat> -> real)
    ensures RunMain([], plaintext, timings, shannon) == Err(NoSuchElement)
    ensures RunInBackground([], plaintext, timings, shannon) == Published("ERROR: null")
  {
  }
}
